=== FILE: README.md ===
# async-server event-loop core in Dafny

A model of the core of `async-server`, a single-threaded TCP server built on
`poll(2)`. The model covers five parts of the C sources:

- **The readiness set** `struct pollfds` (`poll_set.dfy`, module `PollSet`). It is a
  class over an array of `struct pollfd` entries. The first `polled` entries are live
  and hold distinct descriptors; every later slot is marked unused (`fd == -1`).
  `add_event` updates an entry in place or appends one. `remove_event` clears the entry
  and packs the later live entries one slot left. `polled_fds`, `total_fds`,
  `set_timeout` and `check_flag` are queries and a setter.
- **The circular byte buffer** `struct io_buffer` (`io_buffer.dfy`, module `IoBuffers`).
  It is a class with a storage array, a power-of-two `size` and the free-running
  counters `head` and `tail`. The bytes waiting to be sent (`Contents`) are the
  `head - tail` bytes from slot `tail & (size - 1)` onwards, wrapping past the end.
  `iobuff_append` copies in one or two `memcpy` chunks and may grow the storage with
  `realloc`. `iobuff_send` offers an abstract `send` the `head - tail` bytes from slot
  `tail & (size - 1)` onwards. These are the waiting bytes only when they do not cross
  the end of the storage (see Findings). It then advances `tail` by what was accepted.
- **Size arithmetic** (`size_math.dfy` and `bitwise.dfy`, modules `SizeMath` and
  `Bitwise`). `size_roundup` is modelled step by step as written: the test
  `size & (size - 1)`, the six rounds `n = n | n >> s` for s = 1, 2, 4, 8, 16, 32 and
  the increment. C's `&`, `|` and `>>` are defined bit by bit on naturals. On every
  64-bit size the steps are proved to compute a closed form (`SizeRoundup`): the next
  power of two, with the wrap to 0 above 2^63. `min` is modelled as well.
- **The dispatch sweep of `as_poll`** (`event_loop.dfy`, module `EventLoop`). The result
  of the wait is a parameter. The handlers are abstract: the sweep returns the sequence
  of handler invocations it makes.
- **`parse_address`** (`address_parser.dfy`, module `AddressParser`). It is modelled on
  strings, with `sscanf`'s `%u`, literal and `%n` conversions spelled out. It is proved
  to read back the text `A.B.C.D:P`. A dotted quad without a port is read as a bare
  port.

## Model

| member | source | states |
|---|---|---|
| SizeMath.Smear | src/async_server.c:68-74 | The closed form of the or-shift cascade: every bit from the top set bit of `x` down is set. The result plus one is a power of two, at least `x` and below `2x`, and zero only for zero. |
| SizeMath.SmearBit | src/async_server.c:68-74 | Bit `i` of `Smear(x)` is set exactly when `x` has a set bit at position `i` or above. |
| Bitwise.OrBit | src/async_server.c:69-74 | A bit of `a \| b` is set exactly when it is set in `a` or in `b`. |
| Bitwise.AndBit | src/async_server.c:68 | A bit of `a & b` is set exactly when it is set in both `a` and `b`. |
| Bitwise.ShrBit | src/async_server.c:69-74 | Bit `i` of `x >> k` is bit `k + i` of `x`. |
| Bitwise.BitsEqual | src/async_server.c:69-74 | Two values with the same bits are equal. |
| Bitwise.OrShiftSpreads | src/async_server.c:69-74 | Suppose each bit of `n` is set exactly when `x` has a set bit among the `s` positions from there up. Then the same holds for `n \| n >> s` with `2s` positions. |
| SizeMath.CascadeIsSmear | src/async_server.c:69-74 | On every value below 2^64, the six rounds with shifts 1, 2, 4, 8, 16 and 32 compute `Smear`. The rounds set every bit below the top set bit, so the 32-bit round covers a 64-bit `size_t`. |
| SizeMath.PowerTest | src/async_server.c:68 | In 64-bit arithmetic, `size & (size - 1)` is zero exactly when `size` is 0 or a power of two. Zero wraps `size - 1` to 2^64 - 1. |
| SizeMath.SizeRoundup | src/async_server.c:63-79 | The closed form of `size_roundup`. 0 and powers of two are returned unchanged. Any other size up to 2^63 goes to a power of two strictly between the size and twice the size. Sizes above 2^63 wrap to 0. The result always fits in 64 bits. |
| SizeMath.ComputeSizeRoundup | src/async_server.c:63-79 | The test, the six cascade rounds and the increment, run as written in 64-bit arithmetic, return `SizeRoundup(size)`. |
| SizeMath.SizeRoundupIsLeast | src/async_server.c:60-79 | For sizes up to 2^63, no power of two that is at least the size lies below the result, so the result is the next power of two. |
| SizeMath.Min | src/async_server.c:85-87 | The result is one of the two arguments and no larger than either. |
| PollSet.Find | src/async_server.c:201-212 | The scan stops at the first entry watching `fd`. Every entry before it watches another descriptor. It reaches the end only when no entry watches `fd`. |
| PollSet.Covers | lib/as_server.h:206-208 | `(revents & flag) == flag` holds exactly when no bit of `flag` is missing from `revents`. |
| PollSet.CompactedSpec | src/async_server.c:249-267 | Removing entry `k`: earlier entries stay in place (the listener in slot 0 stays first), later live entries move one slot left in order, and the vacated slot is unused. The set stays well formed with the same descriptors less the removed one. |
| PollSet.AddedSpec | src/async_server.c:200-221 | Writing `{fd, events, 0}` over the entry the scan finds, or after the live entries, keeps the set well formed and adds exactly `fd` to the registered descriptors. |
| PollSet.PollFds.constructor | src/async_server.c:144-175 | A new set has `max_descs` slots, all unused, none live, and timeout -1. |
| PollSet.PollFds.PolledFds | lib/as_server.h:176-178 | `polled` equals the number of distinct registered descriptors and never exceeds the capacity. |
| PollSet.PollFds.TotalFds | lib/as_server.h:183-185 | The capacity is positive and at least the number of registered descriptors. |
| PollSet.PollFds.SetTimeout | lib/as_server.h:190-192 | Sets the timeout and changes nothing else; the set stays well formed. |
| PollSet.PollFds.CheckFlag | lib/as_server.h:206-208 | True exactly when every bit of `flag` is set in the returned events of slot `idx`; a zero flag is always true. |
| PollSet.PollFds.AddEvent | src/async_server.c:190-224 | A full set returns -1 unchanged, even for a registered descriptor. Otherwise it returns 0 and overwrites the entry already watching `fd`, or appends a new one and increments `polled`. The registered set gains `fd` and the slots stay well formed. |
| PollSet.PollFds.Locate | src/async_server.c:237-242 | The search loop returns the slot `Find` names. It is below `polled` exactly when `fd` is registered. |
| PollSet.PollFds.Pack | src/async_server.c:258-265 | With slot `k` cleared, the packing loop leaves exactly the compacted slots `Compacted` describes. |
| PollSet.PollFds.RemoveEvent | src/async_server.c:227-268 | An empty set, or one without `fd`, is left unchanged. Otherwise the set is compacted around the entry watching `fd` and `polled` drops by one. Afterwards `fd` is not registered, every other descriptor still is, and the slots stay well formed. |
| EventLoop.ClientCalls | src/async_server.c:597-608 | The client invocations over slots `[lo, hi)` are one per slot with non-zero returned events, each with that slot's descriptor and events. |
| EventLoop.ClientCallAt | src/async_server.c:597-608 | The ready slot `i` is served at the position equal to the number of ready slots before it. |
| EventLoop.ReadyCountGrows | src/async_server.c:597-608 | A ready slot earlier in the array has strictly fewer ready slots before it than a later slot. |
| EventLoop.ListenerFirst | src/async_server.c:589-594 | The listener's handler runs first, and only if slot 0 reported events. Every later invocation is for a client. |
| EventLoop.SweepInArrayOrder | src/async_server.c:596-608 | Two ready live client slots `i < j` are both served, `i` strictly before `j`. |
| EventLoop.AsPoll | src/async_server.c:577-611 | A failed wait returns -1 before any handler runs. Otherwise the loop makes exactly the invocations of the sweep and returns 0. |
| IoBuffers.ModAdv | src/async_server.c:330-331 | Masking a counter advanced by at most one lap gives its masked slot advanced on the ring. |
| IoBuffers.FreeChunks | src/async_server.c:334-348 | The two chunk bounds of `iobuff_append` (to the end and then up to `wtail`, or up to `wtail` alone) together give `size - (head - tail)` free bytes. |
| IoBuffers.PlaceMasked | src/async_server.c:329-354 | Byte `i` of the appended data is stored in slot `(head + i) & (size - 1)`, and every other slot keeps its byte. |
| IoBuffers.WindowAfterPlace | src/async_server.c:329-354 | Writing data at the slot just past the waiting bytes extends the waiting bytes by exactly that data. |
| IoBuffers.WindowDrop | src/async_server.c:414 | Advancing `tail` by `k` drops exactly the first `k` waiting bytes. |
| IoBuffers.WindowAfterGrowth | src/async_server.c:308-326 | Growth that keeps bytes at their indices keeps the waiting bytes when they lie below the old end of the storage. |
| IoBuffers.GrowthMisplacesBytes | src/async_server.c:308-331 | With size 4, tail 4 and head 7, the bytes 1, 2, 3 sit in slots 0..2. Under the mask of size 8 the same counters name new zero bytes. |
| IoBuffers.Outgoing | src/async_server.c:389-406 | The straightened send block (the tail segment, then the head segment) is exactly the waiting bytes. |
| IoBuffers.RegrownKeepsContents | src/async_server.c:305-326 | Growth that copies the waiting bytes into the new storage from the slot of `tail` under the new mask keeps them unchanged. |
| IoBuffers.SpliceTwice | src/async_server.c:335-343 | The two `memcpy` calls of a wrapping write together store the data from the masked head onwards, wrapping past the end. |
| IoBuffers.MemCopy | src/async_server.c:340-341 | `memcpy` replaces exactly the destination bytes from the offset for the length of the source. |
| IoBuffers.CopyWrapping | src/async_server.c:334-346 | The wrapped-layout copy stores `min(length, size - whead + wtail)` bytes from slot `whead` onwards, wrapping past the end. |
| IoBuffers.CopyBetween | src/async_server.c:348-354 | The one-chunk copy stores `min(length, wtail - whead)` bytes from slot `whead`. |
| IoBuffers.IoBuffer.Empty | lib/as_server.h:215-218 | True exactly when no bytes are waiting. |
| IoBuffers.IoBuffer.Full | lib/as_server.h:223-226 | True exactly when `size` bytes are waiting. |
| IoBuffers.IoBuffer.Space | lib/as_server.h:231-234 | The free space is `size` minus the waiting bytes: `size` when empty, 0 when full. |
| IoBuffers.IoBuffer.HeadPtr | lib/as_server.h:239-242 | The unmasked head offset lies inside the storage, and names the slot the mask gives, exactly while `head < size`. |
| IoBuffers.IoBuffer.TailPtr | lib/as_server.h:247-250 | As for the head, for the tail offset. |
| IoBuffers.IoBuffer.constructor | src/async_server.c:273-291 | A new buffer has `size` zeroed bytes and nothing waiting. |
| IoBuffers.Alloc | src/async_server.c:273-291 | A failed `calloc` yields null. Otherwise the result is a fresh, valid, empty buffer of the requested size. |
| IoBuffers.IoBuffer.Grow | src/async_server.c:308-326 | `realloc` to the new size keeps every byte at its index and records the size. The waiting bytes survive at least while `head <= size`. This assumes a `realloc` that works; see "## Left out" for the pointer the C passes it. |
| IoBuffers.IoBuffer.Regrow | src/async_server.c:308-326 | Corrected growth: the new size is recorded and the waiting bytes are unchanged, whatever the counters. |
| IoBuffers.IoBuffer.Reallocate | src/async_server.c:308-326 | A failed `realloc` changes nothing. Otherwise the size becomes `size_roundup(size + length)`, a power of two. Every byte keeps its index in the grown storage, and at least `length` slots are free afterwards. The waiting bytes survive at least while `head <= size`. The same `realloc` assumption as for `Grow` applies. |
| IoBuffers.IoBuffer.Write | src/async_server.c:329-354 | Stores `min(length, free space)` bytes from the masked head onwards and advances `head` by that count. The waiting bytes become the old ones followed by the stored data. |
| IoBuffers.IoBuffer.Append | src/async_server.c:294-355 | Empty input or a full buffer: returns 0 unchanged. Short space with growth allowed: a failed `realloc` returns 0 unchanged; otherwise the size becomes `size_roundup(size + length)` and all the data is written. Otherwise as much as fits is written. `tail` never moves, and the waiting bytes gain the written data whenever the size is unchanged or `head <= size` held. |
| IoBuffers.IoBuffer.Send | src/async_server.c:367-422 | An empty buffer returns 0 and sends nothing. Otherwise `send` is offered `head - tail` bytes from the masked tail. An error returns -1 with `tail` unchanged; otherwise `tail` advances by the accepted count, which is dropped from the front of the waiting bytes. |
| IoBuffers.IoBuffer.FlatContents | src/async_server.c:383-406 | Suppose the waiting bytes do not cross the end of the storage. Then the `head - tail` bytes from the masked tail, the block `send` is offered, are exactly the waiting bytes. |
| IoBuffers.IoBuffer.Offered | src/async_server.c:389-406 | Corrected send block: the bytes handed over are exactly the waiting bytes. |
| IoBuffers.SendOverrunWitness | src/async_server.c:383-406 | After appending 3 bytes, sending 3 and appending 2 more to a 4-byte buffer, `send` is offered 2 bytes from slot 3, which reaches past the end of the storage. |
| IoBuffers.GrowthWitness | src/async_server.c:294-355 | A 4-byte buffer with tail 4 and head 7 holds 1, 2, 3. After appending 9, 9 with growth, it offers 0, 0, 0, 9, 9: the three bytes `realloc` added (zero in the model), then 9, 9. |
| AddressParser.ScanUnsigned | src/tcpserver.c:48 | `%u` matches exactly when a digit is at the position, consumes the whole run of digits, and yields a value below 2^32. |
| AddressParser.ScanFields | src/tcpserver.c:48 | The `%u` and literal pairs either all match, with one value per literal and each below 2^32, or the scan fails. A match starts with a digit. |
| AddressParser.ScanQuad | src/tcpserver.c:48 | A match of `%u.%u.%u.%u:%u%n` starts with a digit, yields five values below 2^32, and stores a positive count no longer than the input. |
| AddressParser.ParseAddress | src/tcpserver.c:37-63 | The family is always `AF_INET`. The result is -1, with the record otherwise zero, exactly when the input does not start with a digit. Otherwise a positive count no longer than the input is returned. Without a dotted quad the count is the leading digit run and the address is `INADDR_ANY`. |
| AddressParser.DecimalOfText | src/tcpserver.c:48 | The value `%u` reads from the decimal text of `n` is `n`. |
| AddressParser.ScanFieldsText | src/tcpserver.c:48 | Digit runs laid out with their literals are read back as their values, and scanning stops just past the last literal. |
| AddressParser.PortTruncation | src/tcpserver.c:50 | Cutting a `%u` value to 16 bits keeps `p mod 2^16`, as if it were cut directly. |
| AddressParser.QuadScans | src/tcpserver.c:48 | Over `A.B.C.D:P` followed by a non-digit, all five conversions match with their values, and `%n` counts the text alone. |
| AddressParser.QuadRoundTrip | src/tcpserver.c:48-51 | `A.B.C.D:P`, followed by anything that does not start with a digit, parses to `(A << 24) \| (B << 16) \| (C << 8) \| D` and port `P mod 2^16`. The count returned is the length of that text. |
| AddressParser.TripleDotScans | src/tcpserver.c:48-52 | Over `A.B.C.D` the dotted-quad form fails at the missing `:`, and the bare `%u` reads `A`. |
| AddressParser.QuadWithoutPort | src/tcpserver.c:48-55 | `A.B.C.D` without a port binds every interface on port `A mod 2^16` and consumes only the digits of `A`. |
| AddressParser.OctetsUnchecked | src/tcpserver.c:49 | Octets are not range-checked: an octet of 256 loses its bit or carries it into the octet above. |

## Left out

- `poll(2)` (`poll_events`), `send(2)`, the event handlers and the hash-table lookup of `as_poll` are abstract. The wait result and the accepted byte count are parameters, and the sweep returns the invocations instead of making them.
- EventLoop.AsPoll: handlers do not change the readiness set during the sweep. In the code, a handler that disconnects its client calls `remove_event`, which shifts the later entries under the running loop.
- `as_bind`, `as_accept`, `as_disconnect`, `as_cleanup`, `server_bind`, `client_alloc`, `align_ptr`, `destroy_pollfds` and `iobuff_free` are socket setup, teardown and memory layout. They are outside the modelled core.
- PollSet.PollFds.constructor: models only a successful `create_pollfds`, because allocation is not modelled. The `malloc` and `calloc` failure paths return null.
- PollSet.PollFds.constructor: does not model `max_descs` of 2^32 or more. The slot count is an unbounded natural. In C the `unsigned int` loop index wraps before reaching such a bound, so the initialisation loop never ends, and `length` (`unsigned int`) would truncate the count. The model accepts every positive count and returns a finished set.
- `calloc` and `realloc` failures are boolean parameters (`callocOk`, `reallocOk`). Bytes that `realloc` adds are modelled as zero; C leaves them indeterminate.
- IoBuffers.IoBuffer.Grow: the storage is modelled as an array of its own. In the C, `iobuff_alloc` places it inside the struct's own allocation (src/async_server.c:287). So `realloc` (line 316) and `free` (line 362) receive a pointer into the middle of an allocated block, which is undefined behaviour for every buffer `iobuff_alloc` makes. The model assumes a `realloc` that succeeds or fails cleanly and keeps every byte at its index.
- IoBuffers.IoBuffer.Reallocate: it inherits the `realloc` assumption of `Grow` above. It also requires `size + length <= 2^63` when growth succeeds. That excludes the C path where the requested size exceeds 2^63, `size_roundup` wraps it to 0 and `realloc(p, 0)` runs.
- IoBuffers.IoBuffer.Append: `head`, `tail` and `size` are unbounded naturals, not 64-bit `size_t`. The counters never wrap, the input is below 2^64, and a successful growth needs `size + length <= 2^63`.
- Bitwise: `&`, `|` and `>>` are defined on unbounded naturals. For operands below 2^64 they coincide with the 64-bit operators, since none of them sets a bit above the highest set bit of its operands.
- IoBuffers.IoBuffer.Space: does not model the truncation of the `size_t` result to `int` for sizes of 2^31 and above.
- IoBuffers.IoBuffer.Send: the straightening branch (`tail > head`) cannot be reached under `tail <= head`, so it is marked unreachable and its `calloc` failure path is not modelled.
- IoBuffers.IoBuffer.HeadPtr: returns the offset `head` rather than a pointer.
- IoBuffers.IoBuffer.TailPtr: returns the offset `tail` rather than a pointer.
- AddressParser.ParseAddress: its `-1` exactly when the input does not start with a digit inherits the gap of `ScanUnsigned` below. In C an input such as ` 80` or `+80` is accepted by `%u` and does not return -1.
- AddressParser.ScanUnsigned: does not skip leading white space and does not accept a sign, both of which `%u` allows. Values of 2^32 and above are reduced modulo 2^32, whereas C leaves an out-of-range `%u` undefined.
- `htonl` and `htons` are not modelled: the address and port are kept in host byte order. The rest of `struct sockaddr_in` that `memset` zeroes is not modelled.
- Logging (`LOG_ERROR`) is not modelled.
- The C `assert` calls on null pointers are not modelled, because the model has no null pointers except the one `Alloc` returns.

## Findings

| source | as written | input that shows it | evidently intended | confidence | as-written member | corrected member |
|---|---|---|---|---|---|---|
| src/async_server.c:308-331 | Growth `realloc`s the storage, keeping every byte at its old index, then masks the unchanged counters with the new size. The misplacement shows once the storage has an allocation of its own. As written, the `realloc` is already undefined, because the storage lies inside the struct's allocation (line 287). | Size 4, tail 4, head 7, holding 1, 2, 3 in slots 0..2. Append 9, 9 with growth allowed. The size becomes 8. The first 9 goes to slot 7 and the second to slot 0, over the old byte 1. | After growth the buffer still offers 1, 2, 3 first, followed by 9, 9. As written it offers the three bytes in slots 4..6, which `realloc` left indeterminate (zero in the model), then 9, 9. | not executed | IoBuffers.GrowthWitness | IoBuffers.IoBuffer.Regrow |
| src/async_server.c:383-406 | The straightening branch is guarded by `tail > head` on the unmasked counters, so a wrapped region is sent as one block from the masked tail. | Size 4: append 3 bytes, send 3, append 2; `send` is offered 2 bytes from slot 3. | The wrapped bytes are straightened into one block of exactly the waiting bytes. | not executed | IoBuffers.SendOverrunWitness | IoBuffers.IoBuffer.Offered |

=== FILE: address_parser.dfy ===
/** `parse_address` (src/tcpserver.c): the listener's bind address is either
    `A.B.C.D:P` or a bare port `P` meaning every interface. Both forms are matched
    with `sscanf`, whose `%u` conversions read a run of decimal digits. */
module AddressParser {
  import opened SizeMath

  datatype Option<T> = None | Some(value: T)

  /** `AF_INET`. */
  const AfInet: int := 2

  /** `INADDR_ANY`, the wildcard address. */
  const InaddrAny: bv32 := 0

  /** `unsigned int` is 32 bits wide; a port is 16. */
  const UintModulus: nat := 0x1_0000_0000
  const PortModulus: nat := 0x1_0000

  /** The fields of `struct sockaddr_in` that `parse_address` sets: the family, the
      IPv4 address and the port (both in host byte order here). */
  datatype SockAddr = SockAddr(family: int, addr: bv32, port: bv16)

  /** The output record after it is zeroed and given its family, before any parsing. */
  const Unparsed: SockAddr := SockAddr(AfInet, 0, 0)

  /** What `parse_address` returns (the characters consumed, or -1) and the record it
      leaves behind. */
  datatype Parsed = Parsed(ret: int, saddr: SockAddr)

  predicate IsDigit(c: char) {
    '0' <= c <= '9'
  }

  predicate AllDigits(ds: string) {
    forall k :: 0 <= k < |ds| ==> IsDigit(ds[k])
  }

  /** The end of the run of decimal digits of `s` that starts at `i`. */
  function DigitsEnd(s: string, i: nat): (j: nat)
    requires i <= |s|
    ensures i <= j <= |s|
    ensures AllDigits(s[i..j])
    ensures j == |s| || !IsDigit(s[j])
    decreases |s| - i
  {
    if i < |s| && IsDigit(s[i]) then DigitsEnd(s, i + 1) else i
  }

  /** The value of a string of decimal digits. */
  function Decimal(ds: string): nat
    requires AllDigits(ds)
  {
    if ds == [] then 0 else 10 * Decimal(ds[..|ds| - 1]) + (ds[|ds| - 1] - '0') as nat
  }

  /** One `%u` conversion at position `i`: the value, reduced to an `unsigned int`, and
      where the digits end. */
  datatype Scan = Scan(value: nat, next: nat)

  /** `%u` at position `i`: matches exactly when a digit is there. */
  function ScanUnsigned(s: string, i: nat): (r: Option<Scan>)
    requires i <= |s|
    ensures r.Some? <==> i < |s| && IsDigit(s[i])
    ensures r.Some? ==> i < r.value.next <= |s| && r.value.value < UintModulus
  {
    var j := DigitsEnd(s, i);
    if j == i then None else Some(Scan(Decimal(s[i..j]) % UintModulus, j))
  }

  /** `%u` followed by the literal character `sep`; `next` is the position after `sep`. */
  function ScanField(s: string, i: nat, sep: char): (r: Option<Scan>)
    requires i <= |s|
    ensures r.Some? ==> i < r.value.next <= |s| && r.value.value < UintModulus
  {
    match ScanUnsigned(s, i)
    case None => None
    case Some(f) => if f.next < |s| && s[f.next] == sep then Some(Scan(f.value, f.next + 1)) else None
  }

  /** The values of a run of `%u` conversions and the position after the last of them. */
  datatype Fields = Fields(values: seq<nat>, next: nat)

  /** `%u` conversions from position `i`, each followed by its literal in `seps`. */
  function ScanFields(s: string, i: nat, seps: string): (r: Option<Fields>)
    requires i <= |s|
    ensures r.Some? ==> |r.value.values| == |seps| && i <= r.value.next <= |s|
    ensures r.Some? ==> forall k :: 0 <= k < |seps| ==> r.value.values[k] < UintModulus
    ensures r.Some? && 0 < |seps| ==> i < |s| && IsDigit(s[i])
    decreases |seps|
  {
    if seps == [] then Some(Fields([], i))
    else
      match ScanFields(s, i, seps[..|seps| - 1])
      case None => None
      case Some(fs) =>
        match ScanField(s, fs.next, seps[|seps| - 1])
        case None => None
        case Some(f) => Some(Fields(fs.values + [f.value], f.next))
  }

  /** The five values of `"%u.%u.%u.%u:%u%n"` and the count `%n` stores. */
  datatype Quad = Quad(a: nat, b: nat, c: nat, d: nat, port: nat, length: nat)

  /** `sscanf(s, "%u.%u.%u.%u:%u%n", ...) == 5`: all five conversions match. */
  function ScanQuad(s: string): (r: Option<Quad>)
    ensures r.Some? ==> 0 < r.value.length <= |s|
    ensures r.Some? ==>
      && r.value.a < UintModulus && r.value.b < UintModulus && r.value.c < UintModulus
      && r.value.d < UintModulus && r.value.port < UintModulus
    ensures r.Some? ==> IsDigit(s[0])
  {
    match ScanFields(s, 0, "...:")
    case None => None
    case Some(fs) =>
      match ScanUnsigned(s, fs.next)
      case None => None
      case Some(p) =>
        Some(Quad(fs.values[0], fs.values[1], fs.values[2], fs.values[3], p.value, p.next))
  }

  /** `(A << 24) | (B << 16) | (C << 8) | D` on `unsigned int`s: bits shifted past bit 31
      are lost and the octets are not range-checked. */
  function Octets(a: nat, b: nat, c: nat, d: nat): bv32
    requires a < UintModulus && b < UintModulus && c < UintModulus && d < UintModulus
  {
    ((a as bv32) << 24) | ((b as bv32) << 16) | ((c as bv32) << 8) | (d as bv32)
  }

  /** `parse_address`: the dotted-quad form sets the address and the port; failing that,
      a leading number is the port on every interface; anything else is -1. The record
      is zeroed and given its family first, so it has both on every path; on success the
      count of characters consumed is returned and whatever follows them is ignored. */
  function ParseAddress(s: string): (r: Parsed)
    ensures r.saddr.family == AfInet
    ensures r.ret == -1 <==> !(0 < |s| && IsDigit(s[0]))
    ensures r.ret == -1 ==> r.saddr == Unparsed
    ensures r.ret != -1 ==> 0 < r.ret <= |s|
    ensures ScanQuad(s).None? && r.ret != -1 ==>
      r.ret == DigitsEnd(s, 0) && r.saddr.addr == InaddrAny
      && r.saddr.port == (Decimal(s[..r.ret]) % UintModulus % PortModulus) as bv16
  {
    match ScanQuad(s)
    case Some(q) =>
      Parsed(q.length, SockAddr(AfInet, Octets(q.a, q.b, q.c, q.d), (q.port % PortModulus) as bv16))
    case None =>
      match ScanUnsigned(s, 0)
      case Some(p) => Parsed(p.next, SockAddr(AfInet, InaddrAny, (p.value % PortModulus) as bv16))
      case None => Parsed(-1, Unparsed)
  }

  // ---------------------------------------------------------------------------
  // Decimal text and the round trip
  // ---------------------------------------------------------------------------

  /** The decimal text of `n`, without leading zeros. */
  function DecimalText(n: nat): (t: string)
    ensures 0 < |t| && AllDigits(t)
  {
    if n < 10 then ['0' + n as char] else DecimalText(n / 10) + ['0' + (n % 10) as char]
  }

  /** Reading back the decimal text of `n` gives `n`. */
  lemma {:induction false} DecimalOfText(n: nat)
    ensures Decimal(DecimalText(n)) == n
  {
    var t := DecimalText(n);
    if n >= 10 {
      DecimalOfText(n / 10);
      assert t[..|t| - 1] == DecimalText(n / 10);
    }
  }

  /** A run of `k` digits starting at `i` that is followed by a non-digit (or the end)
      ends at `i + k`. */
  lemma {:induction false} DigitsEndAt(s: string, i: nat, k: nat)
    requires i + k <= |s|
    requires forall m :: i <= m < i + k ==> IsDigit(s[m])
    requires i + k == |s| || !IsDigit(s[i + k])
    ensures DigitsEnd(s, i) == i + k
    decreases k
  {
    if k > 0 {
      DigitsEndAt(s, i + 1, k - 1);
    }
  }

  /** `%u` reads a run `t` of digits found at position `i` and not followed by a digit. */
  lemma {:induction false} ScanDigits(s: string, i: nat, t: string)
    requires 0 < |t| && AllDigits(t)
    requires i + |t| <= |s| && s[i..i + |t|] == t
    requires i + |t| == |s| || !IsDigit(s[i + |t|])
    ensures ScanUnsigned(s, i) == Some(Scan(Decimal(t) % UintModulus, i + |t|))
  {
    forall m | i <= m < i + |t|
      ensures IsDigit(s[m])
    {
      assert s[m] == t[m - i];
    }
    DigitsEndAt(s, i, |t|);
  }

  /** `%u` then the literal `sep`, over a run `t` of digits followed by `sep`. */
  lemma {:induction false} ScanFieldDigits(s: string, i: nat, t: string, sep: char)
    requires 0 < |t| && AllDigits(t) && !IsDigit(sep)
    requires i + |t| < |s| && s[i..i + |t|] == t && s[i + |t|] == sep
    ensures ScanField(s, i, sep) == Some(Scan(Decimal(t) % UintModulus, i + |t| + 1))
  {
    ScanDigits(s, i, t);
  }

  /** The port `%u` reads is cut to 16 bits: only `p % 2^16` survives both truncations. */
  lemma {:induction false} PortTruncation(p: nat)
    ensures p % UintModulus % PortModulus == p % PortModulus
  {
    var q, r := p / 0x1_0000_0000, p % 0x1_0000_0000;
    assert p == 0x1_0000_0000 * q + r;
    var r1, r2 := r / 0x1_0000, r % 0x1_0000;
    assert r == 0x1_0000 * r1 + r2;
    ModUnique(p, 0x1_0000, 0x1_0000 * q + r1, r2);
  }

  lemma {:induction false} UintBelow(n: nat)
    requires n < UintModulus
    ensures n % UintModulus == n
  {
  }

  predicate DigitRuns(ts: seq<string>) {
    forall k :: 0 <= k < |ts| ==> 0 < |ts[k]| && AllDigits(ts[k])
  }

  /** The text of digit runs `ts`, each followed by its separator in `seps`. */
  function FieldsText(ts: seq<string>, seps: string): (t: string)
    requires |ts| == |seps|
    decreases |seps|
  {
    if seps == [] then []
    else FieldsText(ts[..|ts| - 1], seps[..|seps| - 1]) + ts[|ts| - 1] + [seps[|seps| - 1]]
  }

  /** The values `%u` reads from digit runs `ts`. */
  function Values(ts: seq<string>): (vs: seq<nat>)
    requires DigitRuns(ts)
    ensures |vs| == |ts|
  {
    seq(|ts|, k requires 0 <= k < |ts| => Decimal(ts[k]) % UintModulus)
  }

  /** Where the parts of `front + t + [sep]` lie when that text is found at `i`. */
  lemma {:induction false} SliceParts(s: string, i: nat, front: string, t: string, sep: char)
    requires i + |front + t + [sep]| <= |s| && s[i..i + |front + t + [sep]|] == front + t + [sep]
    ensures s[i..i + |front|] == front
    ensures s[i + |front|..i + |front| + |t|] == t
    ensures s[i + |front| + |t|] == sep
  {
    var whole := front + t + [sep];
    forall k | 0 <= k < |whole|
      ensures s[i + k] == whole[k]
    {
      assert s[i..i + |whole|][k] == s[i + k];
    }
    assert s[i..i + |front|] == whole[..|front|];
    assert s[i + |front|..i + |front| + |t|] == whole[|front|..|front| + |t|];
  }

  /** One more field and literal after a run of them. */
  lemma {:induction false} ScanFieldsStep(s: string, i: nat, seps: string, fs: Fields, f: Scan)
    requires i <= |s| && 0 < |seps| && fs.next <= |s|
    requires ScanFields(s, i, seps[..|seps| - 1]) == Some(fs)
    requires ScanField(s, fs.next, seps[|seps| - 1]) == Some(f)
    ensures ScanFields(s, i, seps) == Some(Fields(fs.values + [f.value], f.next))
  {
  }

  /** After a run of fields, a run `t` of digits and the next literal add one field. */
  lemma {:induction false} ScanFieldsStepDigits(s: string, i: nat, seps: string, fs: Fields, t: string)
    requires i <= |s| && 0 < |seps| && 0 < |t| && AllDigits(t) && !IsDigit(seps[|seps| - 1])
    requires ScanFields(s, i, seps[..|seps| - 1]) == Some(fs)
    requires fs.next + |t| < |s| && s[fs.next..fs.next + |t|] == t && s[fs.next + |t|] == seps[|seps| - 1]
    ensures ScanFields(s, i, seps) == Some(Fields(fs.values + [Decimal(t) % UintModulus], fs.next + |t| + 1))
  {
    ScanFieldDigits(s, fs.next, t, seps[|seps| - 1]);
    ScanFieldsStep(s, i, seps, fs, Scan(Decimal(t) % UintModulus, fs.next + |t| + 1));
  }

  /** Dropping the last digit run: the rest are still digit runs, and their values
      are those of all runs but the last. */
  lemma {:induction false} ValuesSnoc(ts: seq<string>)
    requires 0 < |ts| && DigitRuns(ts)
    ensures DigitRuns(ts[..|ts| - 1]) && 0 < |ts[|ts| - 1]| && AllDigits(ts[|ts| - 1])
    ensures Values(ts) == Values(ts[..|ts| - 1]) + [Decimal(ts[|ts| - 1]) % UintModulus]
  {
  }

  /** The text of digit runs with their separators, found at position `i` of `s`. */
  predicate LaidOut(s: string, i: nat, ts: seq<string>, seps: string)
    requires |ts| == |seps|
  {
    && DigitRuns(ts)
    && (forall k :: 0 <= k < |seps| ==> !IsDigit(seps[k]))
    && i + |FieldsText(ts, seps)| <= |s| && s[i..i + |FieldsText(ts, seps)|] == FieldsText(ts, seps)
  }

  /** All runs but the last are laid out at the same place. */
  lemma {:induction false} LaidOutPrefix(s: string, i: nat, ts: seq<string>, seps: string)
    requires |ts| == |seps| && 0 < |seps| && LaidOut(s, i, ts, seps)
    ensures LaidOut(s, i, ts[..|ts| - 1], seps[..|seps| - 1])
  {
    var n := |seps|;
    ValuesSnoc(ts);
    SliceParts(s, i, FieldsText(ts[..n - 1], seps[..n - 1]), ts[n - 1], seps[n - 1]);
  }

  /** Given what the runs but the last read back, the last one and its literal follow. */
  lemma {:induction false} ScanFieldsLast(s: string, i: nat, ts: seq<string>, seps: string)
    requires |ts| == |seps| && 0 < |seps| && LaidOut(s, i, ts, seps)
    requires ScanFields(s, i, seps[..|seps| - 1])
      == Some(Fields(Values(ts[..|ts| - 1]), i + |FieldsText(ts[..|ts| - 1], seps[..|seps| - 1])|))
    ensures ScanFields(s, i, seps) == Some(Fields(Values(ts), i + |FieldsText(ts, seps)|))
  {
    var n := |seps|;
    var front, t, sep := FieldsText(ts[..n - 1], seps[..n - 1]), ts[n - 1], seps[n - 1];
    ValuesSnoc(ts);
    assert |FieldsText(ts, seps)| == |front| + |t| + 1
      && s[i + |front|..i + |front| + |t|] == t && s[i + |front| + |t|] == sep by {
      assert FieldsText(ts, seps) == front + t + [sep];
      SliceParts(s, i, front, t, sep);
    }
    ScanFieldsStepDigits(s, i, seps, Fields(Values(ts[..n - 1]), i + |front|), t);
  }

  /** The `%u` conversions and literals read back digit runs laid out from position `i`. */
  lemma {:induction false} ScanFieldsText(s: string, i: nat, ts: seq<string>, seps: string)
    requires |ts| == |seps| && LaidOut(s, i, ts, seps)
    ensures ScanFields(s, i, seps) == Some(Fields(Values(ts), i + |FieldsText(ts, seps)|))
    decreases |seps|
  {
    if seps != [] {
      LaidOutPrefix(s, i, ts, seps);
      ScanFieldsText(s, i, ts[..|ts| - 1], seps[..|seps| - 1]);
      ScanFieldsLast(s, i, ts, seps);
    }
  }

  /** The text of the first `k` runs is a prefix of the text of all of them. */
  lemma {:induction false} FieldsTextPrefix(ts: seq<string>, seps: string, k: nat)
    requires |ts| == |seps| && k <= |seps|
    ensures var t := FieldsText(ts[..k], seps[..k]);
      |t| <= |FieldsText(ts, seps)| && FieldsText(ts, seps)[..|t|] == t
    decreases |seps|
  {
    var n := |seps|;
    if k < n {
      FieldsTextPrefix(ts[..n - 1], seps[..n - 1], k);
      assert ts[..n - 1][..k] == ts[..k] && seps[..n - 1][..k] == seps[..k];
    } else {
      assert ts[..k] == ts && seps[..k] == seps;
    }
  }

  /** Runs of fields at the start of a text, whatever follows them, read back. */
  lemma {:induction false} FieldsAtStart(ts: seq<string>, seps: string, tail: string)
    requires |ts| == |seps| && DigitRuns(ts) && forall k :: 0 <= k < |seps| ==> !IsDigit(seps[k])
    ensures ScanFields(FieldsText(ts, seps) + tail, 0, seps) == Some(Fields(Values(ts), |FieldsText(ts, seps)|))
  {
    var front := FieldsText(ts, seps);
    var s := front + tail;
    assert s[0..|front|] == front;
    ScanFieldsText(s, 0, ts, seps);
  }

  /** A number after some text `front`, followed by `rest`, which does not start with a
      digit, reads back. */
  lemma {:induction false} NumberAfter(front: string, tp: string, rest: string)
    requires 0 < |tp| && AllDigits(tp) && (rest == [] || !IsDigit(rest[0]))
    ensures ScanUnsigned(front + tp + rest, |front|) == Some(Scan(Decimal(tp) % UintModulus, |front| + |tp|))
  {
    var s, i := front + tp + rest, |front|;
    assert i + |tp| <= |s| && s[i..i + |tp|] == tp by {
      assert s[i..i + |tp|] == (front + tp + rest)[|front|..|front| + |tp|];
    }
    assert i + |tp| == |s| || !IsDigit(s[i + |tp|]) by {
      assert i + |tp| < |s| ==> s[i + |tp|] == rest[0];
    }
    ScanDigits(s, i, tp);
  }

  /** Runs of fields followed by a number and then `rest`, which does not start with a
      digit: the fields read back their values and the number after them reads back. */
  lemma {:induction false} FieldsThenNumber(ts: seq<string>, seps: string, tp: string, rest: string)
    requires |ts| == |seps| && DigitRuns(ts) && forall k :: 0 <= k < |seps| ==> !IsDigit(seps[k])
    requires 0 < |tp| && AllDigits(tp) && (rest == [] || !IsDigit(rest[0]))
    ensures ScanFields(FieldsText(ts, seps) + tp + rest, 0, seps) == Some(Fields(Values(ts), |FieldsText(ts, seps)|))
    ensures ScanUnsigned(FieldsText(ts, seps) + tp + rest, |FieldsText(ts, seps)|)
      == Some(Scan(Decimal(tp) % UintModulus, |FieldsText(ts, seps)| + |tp|))
  {
    var front := FieldsText(ts, seps);
    assert ScanFields(front + tp + rest, 0, seps) == Some(Fields(Values(ts), |front|)) by {
      assert front + tp + rest == front + (tp + rest);
      FieldsAtStart(ts, seps, tp + rest);
    }
    NumberAfter(front, tp, rest);
  }

  /** Runs of fields followed by the decimal text of `x` and then `rest`, which does not
      start with a digit: the fields read back their values and `%u` then reads `x`. */
  lemma {:induction false} FieldsThenDecimal(ts: seq<string>, seps: string, x: nat, rest: string)
    requires |ts| == |seps| && DigitRuns(ts) && forall k :: 0 <= k < |seps| ==> !IsDigit(seps[k])
    requires rest == [] || !IsDigit(rest[0])
    ensures ScanFields(FieldsText(ts, seps) + DecimalText(x) + rest, 0, seps)
      == Some(Fields(Values(ts), |FieldsText(ts, seps)|))
    ensures ScanUnsigned(FieldsText(ts, seps) + DecimalText(x) + rest, |FieldsText(ts, seps)|)
      == Some(Scan(x % UintModulus, |FieldsText(ts, seps)| + |DecimalText(x)|))
  {
    FieldsThenNumber(ts, seps, DecimalText(x), rest);
    DecimalOfText(x);
  }

  /** The first `%u` over laid-out runs reads the first run. */
  lemma {:induction false} FirstRun(ts: seq<string>, seps: string, rest: string)
    requires |ts| == |seps| && 0 < |seps| && DigitRuns(ts) && !IsDigit(seps[0])
    ensures ScanUnsigned(FieldsText(ts, seps) + rest, 0) == Some(Scan(Decimal(ts[0]) % UintModulus, |ts[0]|))
  {
    var s := FieldsText(ts, seps) + rest;
    FieldsTextPrefix(ts, seps, 1);
    assert FieldsText(ts[..1], seps[..1]) == ts[0] + [seps[0]] by {
      assert FieldsText(ts[..1][..0], seps[..1][..0]) == [];
    }
    assert s[0..|ts[0]|] == ts[0];
    ScanDigits(s, 0, ts[0]);
  }

  /** Fields whose last number runs to the end of the text: one more literal fails. */
  lemma {:induction false} ScanFieldsStopsAtEnd(s: string, seps: string, c: char)
    requires ScanFields(s, 0, seps).Some?
    requires var fs := ScanFields(s, 0, seps).value;
      ScanUnsigned(s, fs.next).Some? && ScanUnsigned(s, fs.next).value.next == |s|
    ensures ScanFields(s, 0, seps + [c]).None?
  {
    assert (seps + [c])[..|seps|] == seps;
  }

  /** The decimal texts of some numbers. */
  function Texts(xs: seq<nat>): (ts: seq<string>)
    ensures |ts| == |xs| && DigitRuns(ts)
  {
    seq(|xs|, k requires 0 <= k < |xs| => DecimalText(xs[k]))
  }

  /** `%u` reads back the decimal texts of numbers below 2^32. */
  lemma {:induction false} TextsValues(xs: seq<nat>)
    requires forall k :: 0 <= k < |xs| ==> xs[k] < UintModulus
    ensures Values(Texts(xs)) == xs
  {
    forall k | 0 <= k < |xs|
      ensures Values(Texts(xs))[k] == xs[k]
    {
      DecimalOfText(xs[k]);
      UintBelow(xs[k]);
    }
  }

  /** The text `A.B.C.D:P` of five numbers. */
  function QuadText(a: nat, b: nat, c: nat, d: nat, p: nat): string
  {
    FieldsText(Texts([a, b, c, d]), "...:") + DecimalText(p)
  }

  /** All five conversions of the dotted-quad form match the text `A.B.C.D:P`
      followed by `rest`, and `%n` counts the characters of that text alone. */
  lemma {:induction false} QuadScans(a: nat, b: nat, c: nat, d: nat, p: nat, rest: string)
    requires a < UintModulus && b < UintModulus && c < UintModulus && d < UintModulus
    requires rest == [] || !IsDigit(rest[0])
    ensures ScanQuad(QuadText(a, b, c, d, p) + rest)
      == Some(Quad(a, b, c, d, p % UintModulus, |QuadText(a, b, c, d, p)|))
  {
    QuadParts(a, b, c, d, p, rest);
  }

  /** The two halves of the dotted-quad form over `A.B.C.D:P` and `rest`: the four
      fields with their literals, then the port. */
  lemma {:induction false} QuadParts(a: nat, b: nat, c: nat, d: nat, p: nat, rest: string)
    requires a < UintModulus && b < UintModulus && c < UintModulus && d < UintModulus
    requires rest == [] || !IsDigit(rest[0])
    ensures ScanFields(QuadText(a, b, c, d, p) + rest, 0, "...:")
      == Some(Fields([a, b, c, d], |FieldsText(Texts([a, b, c, d]), "...:")|))
    ensures ScanUnsigned(QuadText(a, b, c, d, p) + rest, |FieldsText(Texts([a, b, c, d]), "...:")|)
      == Some(Scan(p % UintModulus, |FieldsText(Texts([a, b, c, d]), "...:")| + |DecimalText(p)|))
    ensures |QuadText(a, b, c, d, p)| == |FieldsText(Texts([a, b, c, d]), "...:")| + |DecimalText(p)|
  {
    var ts, tp, seps := Texts([a, b, c, d]), DecimalText(p), "...:";
    assert forall k :: 0 <= k < |seps| ==> !IsDigit(seps[k]);
    assert Values(ts) == [a, b, c, d] by {
      TextsValues([a, b, c, d]);
    }
    FieldsThenDecimal(ts, seps, p, rest);
  }

  /** Round trip: the text `A.B.C.D:P`, followed by anything that does not start with a
      digit, parses to the address `(A << 24) | (B << 16) | (C << 8) | D` and the port `P`
      cut to 16 bits, and the count returned is the length of that text alone. */
  lemma {:induction false} QuadRoundTrip(a: nat, b: nat, c: nat, d: nat, p: nat, rest: string)
    requires a < UintModulus && b < UintModulus && c < UintModulus && d < UintModulus
    requires rest == [] || !IsDigit(rest[0])
    ensures var r := ParseAddress(QuadText(a, b, c, d, p) + rest);
      && r.ret == |QuadText(a, b, c, d, p)|
      && r.saddr == SockAddr(AfInet, Octets(a, b, c, d), (p % PortModulus) as bv16)
  {
    QuadScans(a, b, c, d, p, rest);
    PortTruncation(p);
  }

  /** The text `A.B.C.D` of four numbers. */
  function TripleDotText(a: nat, b: nat, c: nat, d: nat): string
  {
    FieldsText(Texts([a, b, c]), "...") + DecimalText(d)
  }

  /** Over `A.B.C.D` the dotted-quad form fails at the missing `:`, and the bare-port form
      reads `A`. */
  lemma {:induction false} TripleDotScans(a: nat, b: nat, c: nat, d: nat)
    ensures ScanQuad(TripleDotText(a, b, c, d)).None?
    ensures ScanUnsigned(TripleDotText(a, b, c, d), 0) == Some(Scan(a % UintModulus, |DecimalText(a)|))
  {
    var ts, td := Texts([a, b, c]), DecimalText(d);
    var s := TripleDotText(a, b, c, d);
    assert ScanFields(s, 0, "...:").None? by {
      assert s == FieldsText(ts, "...") + td + [];
      FieldsThenNumber(ts, "...", td, []);
      assert "...:" == "..." + [':'];
      ScanFieldsStopsAtEnd(s, "...", ':');
    }
    assert ScanUnsigned(s, 0) == Some(Scan(a % UintModulus, |DecimalText(a)|)) by {
      FirstRun(ts, "...", td);
      DecimalOfText(a);
    }
  }

  /** A dotted quad without `:port` is read as a bare port: `A.B.C.D` binds every
      interface on port `A` (cut to 16 bits), consuming only the digits of `A`. */
  lemma {:induction false} QuadWithoutPort(a: nat, b: nat, c: nat, d: nat)
    ensures var r := ParseAddress(TripleDotText(a, b, c, d));
      && r.ret == |DecimalText(a)|
      && r.saddr == SockAddr(AfInet, InaddrAny, (a % PortModulus) as bv16)
  {
    TripleDotScans(a, b, c, d);
    PortTruncation(a);
  }

  /** Octets are not range-checked: an octet of 256 shifts its bit out of the address
      or into the octet above. */
  lemma OctetsUnchecked()
    ensures Octets(256, 0, 0, 1) == Octets(0, 0, 0, 1)
    ensures Octets(0, 256, 0, 0) == Octets(1, 0, 0, 0)
  {
  }
}

=== FILE: bitwise.dfy ===
/** The C bitwise operators `>>`, `|` and `&` on naturals, defined bit by bit
    from the least significant bit up, with the facts that relate them to the
    individual bits of their operands. */
module Bitwise {

  /** `x >> k`. */
  function Shr(x: nat, k: nat): nat
    decreases k
  {
    if k == 0 then x else Shr(x / 2, k - 1)
  }

  /** Bit `i` of `x` is set. */
  predicate Bit(x: nat, i: nat)
  {
    Shr(x, i) % 2 == 1
  }

  /** `a | b`. */
  function Or(a: nat, b: nat): nat
    decreases a + b
  {
    if a == 0 && b == 0 then 0
    else 2 * Or(a / 2, b / 2) + (if a % 2 == 1 || b % 2 == 1 then 1 else 0)
  }

  /** `a & b`. */
  function And(a: nat, b: nat): nat
    decreases a + b
  {
    if a == 0 || b == 0 then 0
    else 2 * And(a / 2, b / 2) + (if a % 2 == 1 && b % 2 == 1 then 1 else 0)
  }

  /** Some bit of `x` among positions `i` .. `i + n - 1` is set. */
  predicate AnyBit(x: nat, i: nat, n: nat)
    decreases n
  {
    n > 0 && (Bit(x, i) || AnyBit(x, i + 1, n - 1))
  }

  /** Shifting by `j` and then by `k` is shifting by `j + k`. */
  lemma {:induction false} ShrShr(x: nat, j: nat, k: nat)
    ensures Shr(Shr(x, j), k) == Shr(x, j + k)
    decreases j
  {
    if j > 0 {
      ShrShr(x / 2, j - 1, k);
    }
  }

  /** Zero shifted stays zero. */
  lemma {:induction false} ShrZero(k: nat)
    ensures Shr(0, k) == 0
  {
    if k > 0 {
      ShrZero(k - 1);
    }
  }

  /** One more shift halves the value. */
  lemma ShrHalf(x: nat, i: nat)
    ensures Shr(x, i + 1) == Shr(x, i) / 2
  {
    ShrShr(x, i, 1);
  }

  /** Bit `i` of `x >> k` is bit `k + i` of `x`. */
  lemma ShrBit(x: nat, k: nat, i: nat)
    ensures Bit(Shr(x, k), i) == Bit(x, k + i)
  {
    ShrShr(x, k, i);
  }

  /** A bit of `a | b` is set exactly when it is set in `a` or in `b`. */
  lemma {:induction false} OrBit(a: nat, b: nat, i: nat)
    ensures Bit(Or(a, b), i) == (Bit(a, i) || Bit(b, i))
    decreases i
  {
    if i > 0 {
      assert Or(a, b) / 2 == Or(a / 2, b / 2);
      OrBit(a / 2, b / 2, i - 1);
    }
  }

  /** A bit of `a & b` is set exactly when it is set in both `a` and `b`. */
  lemma {:induction false} AndBit(a: nat, b: nat, i: nat)
    ensures Bit(And(a, b), i) == (Bit(a, i) && Bit(b, i))
    decreases i
  {
    if a == 0 || b == 0 {
      ShrZero(i);
    } else if i > 0 {
      assert And(a, b) / 2 == And(a / 2, b / 2);
      AndBit(a / 2, b / 2, i - 1);
    }
  }

  /** Two naturals with the same bits are equal. */
  lemma {:induction false} BitsEqual(a: nat, b: nat)
    requires forall i: nat :: Bit(a, i) == Bit(b, i)
    ensures a == b
    decreases a + b
  {
    assert Bit(a, 0) == Bit(b, 0);
    if a + b > 0 {
      forall i: nat
        ensures Bit(a / 2, i) == Bit(b / 2, i)
      {
        assert Bit(a, i + 1) == Bit(b, i + 1);
      }
      BitsEqual(a / 2, b / 2);
    }
  }

  /** A window of `a + b` bits holds a set bit exactly when its first `a` bits or
      the `b` bits after them do. */
  lemma {:induction false} AnySplit(x: nat, i: nat, a: nat, b: nat)
    ensures AnyBit(x, i, a + b) == (AnyBit(x, i, a) || AnyBit(x, i + a, b))
    decreases a
  {
    if a > 0 {
      AnySplit(x, i + 1, a - 1, b);
    }
  }

  /** When no bit of `x` is set from position `i + n` up, the window of `n` bits at
      `i` holds a set bit exactly when `x >> i` is not zero. */
  lemma {:induction false} AnyAbove(x: nat, i: nat, n: nat)
    requires Shr(x, i + n) == 0
    ensures AnyBit(x, i, n) <==> Shr(x, i) != 0
    decreases n
  {
    if n > 0 {
      AnyAbove(x, i + 1, n - 1);
      ShrHalf(x, i);
    }
  }

  /** One round `y | y >> s` of an or-shift cascade: when every bit of `y` is set
      exactly where `x` has a set bit among the `s` positions from there up, the
      round doubles that window to `2 * s` positions. */
  lemma OrShiftSpreads(x: nat, y: nat, s: nat)
    requires forall i: nat :: Bit(y, i) == AnyBit(x, i, s)
    ensures forall i: nat :: Bit(Or(y, Shr(y, s)), i) == AnyBit(x, i, 2 * s)
  {
    forall i: nat
      ensures Bit(Or(y, Shr(y, s)), i) == AnyBit(x, i, 2 * s)
    {
      OrBit(y, Shr(y, s), i);
      ShrBit(y, s, i);
      assert Bit(y, s + i) == AnyBit(x, i + s, s);
      AnySplit(x, i, s, s);
    }
  }

  /** `a & a` is `a`. */
  lemma {:induction false} AndSelf(a: nat)
    ensures And(a, a) == a
  {
    if a > 0 {
      AndSelf(a / 2);
    }
  }
}

=== FILE: event_loop.dfy ===
/** The dispatch sweep of `as_poll` (src/async_server.c): after the wait, the
    listener's handler runs first if slot 0 reported events, then each client whose
    slot reported events, in slot order. The wait's result and the handlers are
    abstract: the sweep yields the sequence of handler invocations it makes. */
module EventLoop {
  import opened PollSet

  /** One handler invocation: the server handler with the listener's returned
      events, or the handler of the client registered under `fd` with its events. */
  datatype Callback =
    | ServerEvent(events: bv16)
    | ClientEvent(fd: int, events: bv16)

  /** The number of slots in `[lo, hi)` with non-zero returned events. */
  function ReadyCount(e: seq<PollFd>, lo: nat, hi: nat): (n: nat)
    requires lo <= hi <= |e|
    ensures n <= hi - lo
    decreases hi - lo
  {
    if lo == hi then 0
    else ReadyCount(e, lo, hi - 1) + (if e[hi - 1].revents != 0 then 1 else 0)
  }

  /** The client invocations the sweep makes over slots `[lo, hi)`. */
  function ClientCalls(e: seq<PollFd>, lo: nat, hi: nat): (calls: seq<Callback>)
    requires lo <= hi <= |e|
    ensures |calls| == ReadyCount(e, lo, hi)
    ensures forall c :: c in calls ==>
      c.ClientEvent? && exists i :: lo <= i < hi && e[i].revents != 0 && c == ClientEvent(e[i].fd, e[i].revents)
    decreases hi - lo
  {
    if lo == hi then []
    else
      ClientCalls(e, lo, hi - 1)
      + (if e[hi - 1].revents != 0 then [ClientEvent(e[hi - 1].fd, e[hi - 1].revents)] else [])
  }

  /** The whole sweep over a set whose slots are `e` and whose first `polled` are live. */
  function Sweep(e: seq<PollFd>, polled: nat): seq<Callback>
    requires 0 < |e| && polled <= |e|
  {
    (if e[0].revents != 0 then [ServerEvent(e[0].revents)] else [])
    + ClientCalls(e, 1, if polled < 1 then 1 else polled)
  }

  /** The `k`-th client invocation is for the `k`-th ready slot: each ready slot `i`
      in `[lo, hi)` is served at position `ReadyCount(e, lo, i)`. */
  lemma {:induction false} ClientCallAt(e: seq<PollFd>, lo: nat, hi: nat, i: nat)
    requires lo <= i < hi <= |e| && e[i].revents != 0
    ensures ReadyCount(e, lo, i) < |ClientCalls(e, lo, hi)|
    ensures ClientCalls(e, lo, hi)[ReadyCount(e, lo, i)] == ClientEvent(e[i].fd, e[i].revents)
  {
    if i < hi - 1 {
      ClientCallAt(e, lo, hi - 1, i);
    }
  }

  /** A ready slot earlier in the array is served strictly earlier. */
  lemma {:induction false} ReadyCountGrows(e: seq<PollFd>, lo: nat, i: nat, j: nat)
    requires lo <= i < j <= |e| && e[i].revents != 0
    ensures ReadyCount(e, lo, i) < ReadyCount(e, lo, j)
  {
    if j - 1 > i {
      ReadyCountGrows(e, lo, i, j - 1);
    }
  }

  /** The listener is served first and only if slot 0 reported events; everything
      after it is a client invocation. */
  lemma {:induction false} ListenerFirst(e: seq<PollFd>, polled: nat)
    requires 0 < |e| && polled <= |e|
    ensures var calls := Sweep(e, polled);
      && (0 < |calls| && calls[0] == ServerEvent(e[0].revents) <==> e[0].revents != 0)
      && (forall k :: 0 <= k < |calls| && calls[k].ServerEvent? ==> k == 0)
  {
    var calls := Sweep(e, polled);
    var clients := ClientCalls(e, 1, if polled < 1 then 1 else polled);
    if e[0].revents == 0 && 0 < |calls| {
      assert calls[0] == clients[0] && clients[0] in clients;
    }
    var head := if e[0].revents != 0 then 1 else 0;
    forall k | head <= k < |calls|
      ensures calls[k].ClientEvent?
    {
      assert calls[k] == clients[k - head] && clients[k - head] in clients;
    }
  }

  /** Every live client slot `1 <= i < polled` that reported events is served, in
      array order: two ready slots `i < j` are served at positions `p < q`. */
  lemma {:induction false} SweepInArrayOrder(e: seq<PollFd>, polled: nat, i: nat, j: nat)
    requires 0 < |e| && polled <= |e|
    requires 1 <= i < j < polled && e[i].revents != 0 && e[j].revents != 0
    ensures var calls := Sweep(e, polled);
      exists p, q :: 0 <= p < q < |calls|
        && calls[p] == ClientEvent(e[i].fd, e[i].revents)
        && calls[q] == ClientEvent(e[j].fd, e[j].revents)
  {
    var server: seq<Callback> := if e[0].revents != 0 then [ServerEvent(e[0].revents)] else [];
    var clients := ClientCalls(e, 1, polled);
    var calls := Sweep(e, polled);
    assert calls == server + clients;
    ClientCallAt(e, 1, polled, i);
    ClientCallAt(e, 1, polled, j);
    ReadyCountGrows(e, 1, i, j);
    var x, y := ReadyCount(e, 1, i), ReadyCount(e, 1, j);
    assert calls[|server| + x] == clients[x] && calls[|server| + y] == clients[y];
  }

  /** `as_poll`: a failed wait returns -1 before any handler runs; otherwise the
      sweep runs the listener's handler, then each ready client's, and returns 0. */
  method AsPoll(polled: PollFds, waitResult: int) returns (r: int, calls: seq<Callback>)
    requires polled.Valid()
    ensures waitResult < 0 ==> r == -1 && calls == []
    ensures waitResult >= 0 ==> r == 0 && calls == Sweep(polled.fds[..], polled.polled)
  {
    if waitResult < 0 {
      return -1, [];
    }
    calls := [];
    var serverEvents := polled.fds[0].revents;
    if serverEvents != 0 {
      calls := calls + [ServerEvent(serverEvents)];
    }
    ghost var head := calls;
    var i := 1;
    while i < polled.polled
      invariant 1 <= i <= (if polled.polled < 1 then 1 else polled.polled)
      invariant calls == head + ClientCalls(polled.fds[..], 1, i)
    {
      if polled.fds[i].revents != 0 {
        calls := calls + [ClientEvent(polled.fds[i].fd, polled.fds[i].revents)];
      }
      i := i + 1;
    }
    r := 0;
  }
}

=== FILE: io_buffer.dfy ===
/** The circular byte buffer `struct io_buffer` (lib/as_server.h, src/async_server.c).
    `head` and `tail` are free-running counters of bytes written and read; a counter
    names storage slot `counter & (size - 1)`, which for a power-of-two `size` is
    `counter % size`. The bytes waiting to be sent are the `head - tail` bytes from
    slot `tail % size` onwards, wrapping past the end of the storage. */
module IoBuffers {
  import opened SizeMath

  // ---------------------------------------------------------------------------
  // Ring arithmetic
  // ---------------------------------------------------------------------------

  /** The slot reached by advancing `k` places from slot `w` on a ring of `m` slots. */
  function Adv(w: nat, k: nat, m: nat): (p: nat)
    requires w < m && k <= m
    ensures p < m
    ensures p == w + k || p == w + k - m
  {
    if w + k < m then w + k else w + k - m
  }

  /** Masking a counter advanced by at most one lap is advancing its masked slot. */
  lemma {:induction false} ModAdv(t: nat, k: nat, m: nat)
    requires 0 < m && k <= m
    ensures (t + k) % m == Adv(t % m, k, m)
  {
    var q := t / m;
    if t % m + k < m {
      ModUnique(t + k, m, q, t % m + k);
    } else {
      ModUnique(t + k, m, q + 1, t % m + k - m);
    }
  }

  /** The free slots of a ring of `m` slots holding `len` bytes from slot `w` number
      `m - len`: from the slot past the bytes to the end and then from the start up to
      `w` when the bytes do not wrap, or up to `w` alone when they do. */
  lemma {:induction false} FreeChunks(m: nat, len: nat, w: nat)
    requires w < m && len < m
    ensures var at := Adv(w, len, m);
      && (w <= at ==> m - at + w == m - len)
      && (at < w ==> w - at == m - len)
  {
  }

  /** A counter equals its masked slot exactly while it is below the ring size. */
  lemma {:induction false} ModBelow(x: nat, m: nat)
    requires 0 < m
    ensures x % m == x <==> x < m
  {
    if x < m {
      ModUnique(x, m, 0, x);
    }
  }

  // ---------------------------------------------------------------------------
  // Byte storage as a sequence
  // ---------------------------------------------------------------------------

  /** The `len` bytes of ring `s` from slot `w` onwards, wrapping past the end. */
  function Window(s: seq<bv8>, w: nat, len: nat): (r: seq<bv8>)
    requires w < |s| && len <= |s|
    ensures |r| == len
  {
    seq(len, i requires 0 <= i < len => s[Adv(w, i, |s|)])
  }

  /** `memcpy` into `s` at offset `at`: the bytes of `x` replace `s[at..at + |x|]`. */
  function Splice(s: seq<bv8>, at: nat, x: seq<bv8>): (r: seq<bv8>)
    requires at + |x| <= |s|
    ensures |r| == |s|
  {
    seq(|s|, j requires 0 <= j < |s| => if at <= j < at + |x| then x[j - at] else s[j])
  }

  /** Ring `s` with the bytes of `d` written from slot `at` onwards, wrapping past the end. */
  function Place(s: seq<bv8>, at: nat, d: seq<bv8>): (r: seq<bv8>)
    requires at < |s| && |d| <= |s|
    ensures |r| == |s|
  {
    seq(|s|, j requires 0 <= j < |s| =>
      if at <= j < at + |d| then d[j - at]
      else if j + |s| < at + |d| then d[j + |s| - at]
      else s[j])
  }

  /** A write that does not reach the end of the storage is one `memcpy`. */
  lemma {:induction false} SpliceOnce(s: seq<bv8>, at: nat, d: seq<bv8>)
    requires at < |s| && at + |d| <= |s|
    ensures Splice(s, at, d) == Place(s, at, d)
  {
  }

  /** A write that wraps is a `memcpy` of its first `first` bytes up to the end of the
      storage and a `memcpy` of the rest to the start. */
  lemma {:induction false} SpliceTwice(s: seq<bv8>, at: nat, d: seq<bv8>, first: nat)
    requires at < |s| && first <= |d| && at + first <= |s| && |d| - first <= at
    requires first < |d| ==> at + first == |s|
    ensures Splice(Splice(s, at, d[..first]), 0, d[first..]) == Place(s, at, d)
  {
    var mid := Splice(s, at, d[..first]);
    var r := Splice(mid, 0, d[first..]);
    forall j | 0 <= j < |s|
      ensures r[j] == Place(s, at, d)[j]
    {
      if j < |d| - first {
        assert r[j] == d[first..][j] == d[j + |s| - at];
      } else {
        assert r[j] == mid[j];
      }
    }
  }

  /** `realloc` of ring `s` to `n` bytes: every old byte keeps its index and the bytes
      past the old end are new (zero here). */
  function Grown(s: seq<bv8>, n: nat): (r: seq<bv8>)
    requires |s| <= n
    ensures |r| == n
  {
    s + seq(n - |s|, _ => 0)
  }

  /** Writing `d` at the masked slot of counter `h` stores `d[k]` in every slot `j` whose
      offset `(j - h) % |s|` from the counter is `k < |d|`, and leaves every other slot as
      it was: byte `i` of `d` goes to slot `(h + i) & (size - 1)`. */
  lemma {:induction false} PlaceMasked(s: seq<bv8>, h: nat, d: seq<bv8>)
    requires 0 < |s| && |d| <= |s|
    ensures forall j :: 0 <= j < |s| ==>
      Place(s, h % |s|, d)[j] == (if (j - h) % |s| < |d| then d[(j - h) % |s|] else s[j])
  {
    var m := |s|;
    var at := h % m;
    forall j | 0 <= j < m
      ensures Place(s, at, d)[j] == (if (j - h) % m < |d| then d[(j - h) % m] else s[j])
    {
      if at <= j {
        ModUnique(j - h, m, -(h / m), j - at);
      } else {
        ModUnique(j - h, m, -(h / m) - 1, j + m - at);
      }
    }
  }

  /** Appending `d` at the slot just past a window extends the window by `d`. */
  lemma {:induction false} WindowAfterPlace(s: seq<bv8>, w: nat, len: nat, d: seq<bv8>)
    requires w < |s| && len + |d| <= |s|
    ensures Window(Place(s, Adv(w, len, |s|), d), w, len + |d|) == Window(s, w, len) + d
  {
    var m := |s|;
    var at := Adv(w, len, m);
    var r := Place(s, at, d);
    var lhs := Window(r, w, len + |d|);
    var rhs := Window(s, w, len) + d;
    forall i | 0 <= i < len + |d|
      ensures lhs[i] == rhs[i]
    {
      if i >= len {
        assert Adv(w, i, m) == Adv(at, i - len, m);
      }
    }
  }

  /** Consuming `k` bytes from the front of a window leaves the window from `k` slots on. */
  lemma {:induction false} WindowDrop(s: seq<bv8>, w: nat, len: nat, k: nat)
    requires w < |s| && k <= len <= |s|
    ensures Window(s, Adv(w, k, |s|), len - k) == Window(s, w, len)[k..]
  {
    var lhs := Window(s, Adv(w, k, |s|), len - k);
    var rhs := Window(s, w, len)[k..];
    forall i | 0 <= i < len - k
      ensures lhs[i] == rhs[i]
    {
      assert Adv(Adv(w, k, |s|), i, |s|) == Adv(w, k + i, |s|);
    }
  }

  /** Growth keeps a window that lies below the old end of the storage. */
  lemma {:induction false} WindowAfterGrowth(s: seq<bv8>, t: nat, len: nat, n: nat)
    requires 0 < |s| <= n && t + len <= |s|
    ensures Window(Grown(s, n), t % n, len) == Window(s, t % |s|, len)
  {
    if len > 0 {
      ModBelow(t, |s|);
      ModBelow(t, n);
      var lhs, rhs := Window(Grown(s, n), t, len), Window(s, t, len);
      forall i | 0 <= i < len
        ensures lhs[i] == rhs[i]
      {
        assert lhs[i] == Grown(s, n)[t + i] && rhs[i] == s[t + i];
      }
    }
  }

  /** The bytes handed over by a send from slot `w`: a slice of the storage when the
      `len` bytes do not cross its end, otherwise the straightened copy of both parts. */
  function Outgoing(s: seq<bv8>, w: nat, len: nat): (r: seq<bv8>)
    requires w < |s| && len <= |s|
    ensures r == Window(s, w, len)
  {
    if w + len <= |s| then s[w..w + len] else s[w..] + s[..w + len - |s|]
  }

  /** A window that does not cross the end of the storage is a plain slice. */
  lemma WindowFlat(s: seq<bv8>, w: nat, len: nat)
    requires w < |s| && w + len <= |s|
    ensures Window(s, w, len) == s[w..w + len]
  {
  }

  /** Growth that straightens the waiting bytes into the new storage from the slot their
      first counter names under the new mask. */
  function Regrown(s: seq<bv8>, t: nat, len: nat, n: nat): (r: seq<bv8>)
    requires 0 < |s| <= n && len <= |s|
    ensures |r| == n
  {
    Place(seq(n, _ => 0), t % n, Window(s, t % |s|, len))
  }

  /** Straightening growth keeps the waiting bytes wherever they lay. */
  lemma {:induction false} RegrownKeepsContents(s: seq<bv8>, t: nat, len: nat, n: nat)
    requires 0 < |s| <= n && len <= |s|
    ensures Window(Regrown(s, t, len, n), t % n, len) == Window(s, t % |s|, len)
  {
    var z: seq<bv8> := seq(n, _ => 0);
    WindowAfterPlace(z, t % n, 0, Window(s, t % |s|, len));
    assert Window(z, t % n, 0) == [];
  }

  /** Growth as written misplaces the waiting bytes once the counters have passed the
      old size: with size 4, tail 4 and head 7 the bytes sit in slots 0..2, but under the
      new mask of size 8 the same counters name the new slots 4..6. */
  lemma GrowthMisplacesBytes()
    ensures var s: seq<bv8> := [1, 2, 3, 8];
      && Window(s, 4 % 4, 7 - 4) == [1, 2, 3]
      && Window(Grown(s, 8), 4 % 8, 7 - 4) == [0, 0, 0]
  {
    var s: seq<bv8> := [1, 2, 3, 8];
    assert Window(s, 0, 3) == [s[0], s[1], s[2]];
    var g := Grown(s, 8);
    assert Window(g, 4, 3) == [g[4], g[5], g[6]];
  }

  // ---------------------------------------------------------------------------
  // The buffer
  // ---------------------------------------------------------------------------

  /** What `iobuff_send` hands to `send`: nothing, or `count` bytes of the storage from
      slot `offset` onwards. */
  datatype SendCall = NoSend | SendFrom(offset: nat, count: nat)

  /** A freshly allocated array holding `bytes`. */
  method FreshCopy(bytes: seq<bv8>) returns (a: array<bv8>)
    ensures fresh(a) && a[..] == bytes
  {
    a := new bv8[|bytes|](j requires 0 <= j < |bytes| => bytes[j]);
  }

  /** `memcpy(dst + at, src, |src|)`. */
  method MemCopy(dst: array<bv8>, at: nat, src: seq<bv8>)
    requires at + |src| <= dst.Length
    modifies dst
    ensures dst[..] == Splice(old(dst[..]), at, src)
  {
    var i := 0;
    while i < |src|
      invariant 0 <= i <= |src|
      invariant forall j :: 0 <= j < dst.Length ==>
        dst[j] == (if at <= j < at + i then src[j - at] else old(dst[j]))
    {
      dst[at + i] := src[i];
      i := i + 1;
    }
  }

  /** The copy of a write whose free slots wrap: one `memcpy` from slot `at` up to the
      end of the storage, a second from the start up to slot `w`. */
  method CopyWrapping(dst: array<bv8>, at: nat, w: nat, data: seq<bv8>) returns (n: nat)
    requires w <= at < dst.Length
    modifies dst
    ensures n == Min(|data|, dst.Length - at + w)
    ensures dst[..] == Place(old(dst[..]), at, data[..n])
  {
    var first := Min(|data|, dst.Length - at);
    var second := Min(|data| - first, w);
    MemCopy(dst, at, data[..first]);
    MemCopy(dst, 0, data[first..first + second]);
    n := first + second;
    assert data[..n][..first] == data[..first] && data[..n][first..] == data[first..first + second];
    SpliceTwice(old(dst[..]), at, data[..n], first);
  }

  /** The copy of a write whose free slots do not wrap: one `memcpy` of at most `room`
      bytes from slot `at`. */
  method CopyBetween(dst: array<bv8>, at: nat, room: nat, data: seq<bv8>) returns (n: nat)
    requires at + room <= dst.Length && at < dst.Length
    modifies dst
    ensures n == Min(|data|, room)
    ensures dst[..] == Place(old(dst[..]), at, data[..n])
  {
    n := Min(|data|, room);
    MemCopy(dst, at, data[..n]);
    SpliceOnce(old(dst[..]), at, data[..n]);
  }

  /** `struct io_buffer`. */
  class IoBuffer {
    var storage: array<bv8>
    var size: nat
    var head: nat
    var tail: nat

    /** The storage has `size` bytes, `size` is 0 or a power of two, and at most `size`
        bytes are waiting. */
    ghost predicate Valid()
      reads this
    {
      storage.Length == size && (size == 0 || IsPow2(size)) && tail <= head <= tail + size
    }

    /** The bytes waiting to be sent, oldest first. */
    function Contents(): (c: seq<bv8>)
      reads this, storage
      requires Valid()
      ensures |c| == head - tail
    {
      if size == 0 then [] else Window(storage[..], tail % size, head - tail)
    }

    /** `iobuff_empty`. */
    function Empty(): (e: bool)
      reads this, storage
      ensures Valid() ==> (e <==> Contents() == [])
    {
      head == tail
    }

    /** `iobuff_full`. */
    function Full(): (f: bool)
      reads this, storage
      ensures Valid() ==> (f <==> |Contents()| == size)
    {
      head - tail == size
    }

    /** `iobuff_space`: the free bytes; an empty buffer reports `size`, a full one 0. */
    function Space(): (n: int)
      reads this, storage
      ensures Valid() ==> n == size - |Contents()|
      ensures Valid() && Empty() ==> n == size
      ensures Valid() && Full() ==> n == 0
    {
      if head >= tail then size - (head - tail) else tail - head
    }

    /** `iobuff_headptr`: the raw, unmasked head counter as a storage offset; it lies in
        the storage, and names the slot the mask names, exactly while `head < size`. */
    function HeadPtr(): (p: nat)
      reads this
      ensures Valid() ==> (p < storage.Length <==> head < size)
      ensures Valid() && 0 < size ==> (p == head % size <==> head < size)
    {
      if 0 < size then ModBelow(head, size); head else head
    }

    /** `iobuff_tailptr`: as `HeadPtr`, for the tail counter. */
    function TailPtr(): (p: nat)
      reads this
      ensures Valid() ==> (p < storage.Length <==> tail < size)
      ensures Valid() && 0 < size ==> (p == tail % size <==> tail < size)
    {
      if 0 < size then ModBelow(tail, size); tail else tail
    }

    /** `iobuff_alloc` once its allocation succeeded: `n` zeroed bytes, nothing waiting. */
    constructor (n: nat)
      requires n < SizeModulus && (n == 0 || IsPow2(n))
      ensures Valid() && fresh(storage)
      ensures size == n && head == 0 && tail == 0
      ensures storage[..] == seq(n, _ => 0) && Contents() == []
    {
      storage := new bv8[SizeRoundup(n)](_ => 0);
      size := n;
      head, tail := 0, 0;
    }

    /** The growth step of `iobuff_append`: `realloc` to `newSize` bytes, keeping every
        byte at its index, and the new size recorded. The storage is an array of its
        own here; in the C it lies inside the buffer's own allocation, so this is the
        `realloc` the code evidently means rather than the one it calls. */
    method Grow(newSize: nat)
      requires Valid() && 0 < size < newSize && IsPow2(newSize)
      modifies this
      ensures Valid() && fresh(storage)
      ensures size == newSize && head == old(head) && tail == old(tail)
      ensures storage[..] == Grown(old(storage[..]), newSize)
      ensures old(head) <= old(size) ==> Contents() == old(Contents())
    {
      var kept := storage[..];
      storage := FreshCopy(Grown(kept, newSize));
      if head <= size {
        WindowAfterGrowth(kept, tail, head - tail, newSize);
      }
      size := newSize;
    }

    /** Growth that keeps the waiting bytes: the corrected growth step, which copies them
        into the new storage from the slot the new mask gives `tail`. */
    method Regrow(newSize: nat)
      requires Valid() && 0 < size < newSize && IsPow2(newSize)
      modifies this
      ensures Valid() && fresh(storage)
      ensures size == newSize && head == old(head) && tail == old(tail)
      ensures storage[..] == Regrown(old(storage[..]), old(tail), old(head - tail), newSize)
      ensures Contents() == old(Contents())
    {
      var bytes := Regrown(storage[..], tail, head - tail, newSize);
      RegrownKeepsContents(storage[..], tail, head - tail, newSize);
      ghost var before := Window(storage[..], tail % size, head - tail);
      assert Contents() == before;
      storage := FreshCopy(bytes);
      size := newSize;
      assert Contents() == Window(bytes, tail % newSize, head - tail) == before;
    }

    /** The growth step of `iobuff_append` on a buffer with fewer free bytes than
        `length`: the size `size + length` is rounded up in 64-bit arithmetic and the
        storage reallocated to it (`reallocOk` reports whether `realloc` succeeded);
        on failure nothing changes. */
    method Reallocate(length: nat, reallocOk: bool) returns (grown: bool)
      requires Valid() && 0 < length < SizeModulus && head - tail < size < head - tail + length
      requires reallocOk ==> size + length <= HighBit
      modifies this
      ensures Valid() && head == old(head) && tail == old(tail) && grown == reallocOk
      ensures !grown ==> size == old(size) && storage == old(storage)
      ensures grown ==> && size == SizeRoundup(old(size) + length) && IsPow2(size) && fresh(storage)
                        && storage[..] == Grown(old(storage[..]), size)
                        && length <= size - (head - tail)
      ensures grown && old(head) <= old(size) ==> Contents() == old(Contents())
    {
      var newSize := ComputeSizeRoundup((size + length) % SizeModulus);
      if !reallocOk {
        return false;
      }
      RoundupCovers(size + length);
      Grow(newSize);
      grown := true;
    }

    /** The copy step of `iobuff_append` on a buffer that is neither full nor given an
        empty input: the bytes go to the free slots from the masked head onwards, in one
        chunk or, when the free slots wrap, in two. */
    method Write(data: seq<bv8>) returns (n: nat)
      requires Valid() && 0 < |data| && head - tail < size
      modifies this, storage
      ensures Valid()
      ensures storage == old(storage) && size == old(size) && tail == old(tail)
      ensures n == Min(|data|, size - old(head - tail)) && head == old(head) + n
      ensures storage[..] == Place(old(storage[..]), old(head) % size, data[..n])
      ensures Contents() == old(Contents()) + data[..n]
    {
      var len := head - tail;
      var whead := head % size;
      var wtail := tail % size;
      ModAdv(tail, len, size);
      FreeChunks(size, len, wtail);
      ghost var s := storage[..];
      assert Contents() == Window(s, wtail, len);
      if wtail <= whead {
        n := CopyWrapping(storage, whead, wtail, data);
      } else {
        n := CopyBetween(storage, whead, wtail - whead, data);
      }
      head := head + n;
      WindowAfterPlace(s, wtail, len, data[..n]);
      assert Contents() == Window(Place(s, whead, data[..n]), wtail, len + n);
    }

    /** `iobuff_append`: refuses an empty input or a full buffer; grows to
        `size_roundup(size + length)` when the free space is short and growth is allowed
        (returning 0 when `realloc` fails, reported by `reallocOk`); then copies as much as
        fits. Growth keeps every byte at its old index, so the waiting bytes survive it
        at least while `head <= size`. */
    method Append(data: seq<bv8>, canReallocate: bool, reallocOk: bool) returns (n: nat)
      requires Valid()
      requires |data| < SizeModulus
      requires reallocOk ==> size + |data| <= HighBit
      modifies this, storage
      ensures Valid() && tail == old(tail)
      ensures |data| == 0 || old(head - tail) == old(size) ==>
        n == 0 && size == old(size) && head == old(head) && storage == old(storage)
        && storage[..] == old(storage[..])
      ensures 0 < |data| && old(head - tail) < old(size) && old(size - (head - tail)) < |data| && canReallocate && !reallocOk ==>
        n == 0 && size == old(size) && head == old(head) && storage == old(storage)
        && storage[..] == old(storage[..])
      ensures 0 < |data| && old(head - tail) < old(size) && old(size - (head - tail)) < |data| && canReallocate && reallocOk ==>
        && size == SizeRoundup(old(size) + |data|) && IsPow2(size) && fresh(storage)
        && n == |data| && head == old(head) + n
        && storage[..] == Place(Grown(old(storage[..]), size), old(head) % size, data)
      ensures 0 < |data| && old(head - tail) < old(size) && !(old(size - (head - tail)) < |data| && canReallocate) ==>
        && size == old(size) && storage == old(storage)
        && n == Min(|data|, old(size - (head - tail))) && head == old(head) + n
        && storage[..] == Place(old(storage[..]), old(head) % size, data[..n])
      ensures size == old(size) || old(head) <= old(size) ==> Contents() == old(Contents()) + data[..n]
    {
      if |data| == 0 || Full() {
        return 0;
      }
      var free := Space();
      if free < |data| && canReallocate {
        ghost var oldSize := size;
        var grown := Reallocate(|data|, reallocOk);
        if !grown {
          return 0;
        }
        ghost var newSize := size;
        assert newSize == SizeRoundup(oldSize + |data|);
        n := Write(data);
        assert size == newSize && data[..n] == data;
      } else {
        n := Write(data);
      }
    }

    /** The bytes a send should offer: the waiting bytes straightened into one block when
        they cross the end of the storage, which the corrected send hands over. */
    function Offered(): (out: seq<bv8>)
      reads this, storage
      requires Valid()
      ensures out == Contents()
    {
      if size == 0 then [] else Outgoing(storage[..], tail % size, head - tail)
    }

    /** Waiting bytes that do not cross the end of the storage lie in one slice of it,
        from the masked tail on. */
    lemma FlatContents()
      requires Valid() && head != tail && tail % size + (head - tail) <= size
      ensures storage[..][tail % size..tail % size + (head - tail)] == Contents()
    {
      WindowFlat(storage[..], tail % size, head - tail);
    }

    /** `iobuff_send` with `send` abstract: `sent` is what the transport accepted, or -1
        for an error. An empty buffer returns 0 without sending; otherwise the
        `head - tail` bytes from the masked tail are offered, and the tail advances by
        what was accepted. */
    method Send(sent: int) returns (r: int, call: SendCall)
      requires Valid()
      requires -1 <= sent <= head - tail
      modifies this
      ensures Valid()
      ensures size == old(size) && head == old(head) && storage == old(storage)
      ensures old(head) == old(tail) ==> r == 0 && call == NoSend && tail == old(tail)
      ensures old(head) != old(tail) ==> call == SendFrom(old(tail) % size, old(head) - old(tail))
      ensures old(head) != old(tail) && sent < 0 ==> r == -1 && tail == old(tail)
      ensures old(head) != old(tail) && 0 <= sent ==> r == sent && tail == old(tail) + sent
      ensures 0 <= r ==> Contents() == old(Contents())[r..]
      ensures r < 0 ==> Contents() == old(Contents())
    {
      var length := head - tail;
      if length == 0 {
        return 0, NoSend;
      }
      var wtail := tail % size;
      if tail > head {
        // The straightening copy into a fresh block is never reached: tail <= head.
        assert false;
      }
      call := SendFrom(wtail, length);
      if sent < 0 {
        return -1, call;
      }
      ModAdv(tail, sent, size);
      WindowDrop(storage[..], wtail, length, sent);
      tail := tail + sent;
      r := sent;
    }
  }

  /** `iobuff_alloc`: a fresh empty buffer of `n` bytes, or null when `calloc` fails
      (reported by `callocOk`). */
  method Alloc(n: nat, callocOk: bool) returns (b: IoBuffer?)
    requires n < SizeModulus && (n == 0 || IsPow2(n))
    ensures callocOk <==> b != null
    ensures b != null ==> fresh(b) && b.Valid() && b.size == n && b.Contents() == []
  {
    if !callocOk {
      return null;
    }
    b := new IoBuffer(n);
  }

  /** The contiguous send window leaves the storage when the waiting bytes wrap: two
      bytes written at counters 3 and 4 of a 4-byte buffer are offered as 2 bytes from
      slot 3, one past the end. */
  method SendOverrunWitness() returns (call: SendCall, size: nat)
    ensures call == SendFrom(3, 2) && size == 4
    ensures call.offset + call.count > size
  {
    var b := new IoBuffer(4);
    assert IsPow2(4);
    var n := b.Append([1, 2, 3], false, false);
    var r;
    r, call := b.Send(3);
    n := b.Append([4, 5], false, false);
    r, call := b.Send(2);
    size := b.size;
  }

  /** A 4-byte buffer whose counters have passed its size: tail 4, head 7, holding the
      bytes 1, 2, 3 in slots 0..2. */
  method WrappedBuffer() returns (b: IoBuffer)
    ensures fresh(b) && fresh(b.storage) && b.Valid()
    ensures b.size == 4 && b.tail == 4 && b.head == 7
    ensures b.storage[..] == [1, 2, 3, 8] && b.Contents() == [1, 2, 3]
  {
    b := DrainedBuffer();
    var n := b.Append([1, 2, 3], false, false);
    assert b.storage[..] == [1, 2, 3, 8] by {
      assert Place([5, 6, 7, 8], 0, [1, 2, 3]) == [1, 2, 3, 8];
    }
    assert Window([1, 2, 3, 8], 0, 3) == [1, 2, 3];
  }

  /** A 4-byte buffer filled with 5, 6, 7, 8 and then sent in full. */
  method DrainedBuffer() returns (b: IoBuffer)
    ensures fresh(b) && fresh(b.storage) && b.Valid()
    ensures b.size == 4 && b.tail == 4 && b.head == 4 && b.storage[..] == [5, 6, 7, 8]
  {
    b := new IoBuffer(4);
    assert IsPow2(4);
    var n := b.Append([5, 6, 7, 8], false, false);
    assert b.storage[..] == [5, 6, 7, 8] by {
      assert Place([0, 0, 0, 0], 0, [5, 6, 7, 8]) == [5, 6, 7, 8];
    }
    var r, call := b.Send(4);
  }

  /** The six bytes the growth witness below asks for round up to eight. */
  lemma SixRoundsToEight()
    ensures SizeRoundup(4 + 2) == 8
  {
    assert !IsPow2(6) && IsPow2(Pow2(3));
    Pow2Between(SizeRoundup(6), Pow2(3));
  }

  /** The storage of the growth witness below: the four old bytes grow to eight,
      two bytes land in slots 7 and 0, and the window from slot 4 shows what the
      buffer then offers. */
  lemma GrowthLayout()
    ensures Grown([1, 2, 3, 8], 8) == [1, 2, 3, 8, 0, 0, 0, 0]
    ensures Place([1, 2, 3, 8, 0, 0, 0, 0], 7, [9, 9]) == [9, 2, 3, 8, 0, 0, 0, 9]
    ensures Window([9, 2, 3, 8, 0, 0, 0, 9], 4, 5) == [0, 0, 0, 9, 9]
  {
    var w := Window([9, 2, 3, 8, 0, 0, 0, 9], 4, 5);
    assert w[0] == 0 && w[1] == 0 && w[2] == 0 && w[3] == 9 && w[4] == 9;
  }

  /** Growth as written loses waiting bytes: appending two bytes to the buffer above
      grows it to 8 bytes, after which it offers three new zero bytes where it held
      1, 2, 3. */
  method GrowthWitness() returns (before: seq<bv8>, after: seq<bv8>)
    ensures before == [1, 2, 3]
    ensures after == [0, 0, 0, 9, 9]
  {
    var b := WrappedBuffer();
    before := b.Contents();
    SixRoundsToEight();
    GrowthLayout();
    var n := b.Append([9, 9], true, true);
    assert b.storage[..] == [9, 2, 3, 8, 0, 0, 0, 9];
    assert b.size == 8 && b.tail == 4 && b.head == 9;
    after := b.Contents();
  }
}

=== FILE: poll_set.dfy ===
/** The readiness set `struct pollfds` of lib/as_server.h and the functions of
    src/async_server.c and lib/as_server.h that create, update and query it. */
module PollSet {

  /** One `struct pollfd`: a descriptor, the events asked for, the events returned. */
  datatype PollFd = PollFd(fd: int, events: bv16, revents: bv16)

  /** The slot value that marks an unused entry: no descriptor, no events. */
  const Cleared := PollFd(-1, 0, 0)

  /** The index of the first entry of `entries` that watches `fd`, or `|entries|` when
      none does: what the scans of `add_event` and `remove_event` find. */
  function Find(entries: seq<PollFd>, fd: int): (k: nat)
    ensures k <= |entries|
    ensures k < |entries| ==> entries[k].fd == fd
    ensures forall j :: 0 <= j < k ==> entries[j].fd != fd
  {
    if |entries| == 0 then 0
    else if entries[0].fd == fd then 0
    else 1 + Find(entries[1..], fd)
  }

  /** Every bit of `flag` is set in `revents`. */
  function Covers(revents: bv16, flag: bv16): (b: bool)
    ensures b <==> (flag & !revents) == 0
  {
    (revents & flag) == flag
  }

  /** The descriptors watched by `entries`. */
  ghost function Fds(entries: seq<PollFd>): set<int>
  {
    set i | 0 <= i < |entries| :: entries[i].fd
  }

  /** No descriptor appears twice in `entries`. */
  ghost predicate Distinct(entries: seq<PollFd>)
  {
    forall i, j :: 0 <= i < j < |entries| ==> entries[i].fd != entries[j].fd
  }

  lemma {:induction false} FdsAppend(entries: seq<PollFd>, e: PollFd)
    ensures Fds(entries + [e]) == Fds(entries) + {e.fd}
  {
    var s := entries + [e];
    forall x | x in Fds(entries)
      ensures x in Fds(s)
    {
      var i :| 0 <= i < |entries| && entries[i].fd == x;
      assert s[i] == entries[i];
    }
    assert s[|entries|] == e;
  }

  /** A list of distinct descriptors watches exactly as many descriptors as it has entries. */
  lemma {:induction false} DistinctCount(entries: seq<PollFd>)
    requires Distinct(entries)
    ensures |Fds(entries)| == |entries|
  {
    if |entries| > 0 {
      var init := entries[..|entries| - 1];
      var last := entries[|entries| - 1];
      assert Distinct(init);
      DistinctCount(init);
      assert Fds(entries) == Fds(init) + {last.fd};
      assert last.fd !in Fds(init);
    }
  }

  /** The array after `remove_event` compacts it, when the entry at `k` of the
      first `polled` is removed: the entries after `k` move one slot left, and the
      slot they vacate keeps the moved entry's events but has descriptor -1 (or is
      cleared outright when the removed entry was the last one). */
  function Compacted(a: seq<PollFd>, k: nat, polled: nat): (r: seq<PollFd>)
    requires k < polled <= |a|
    ensures |r| == |a|
  {
    var vacated := if k + 1 == polled then Cleared else a[polled - 1].(fd := -1);
    a[..k] + a[k + 1..polled] + [vacated] + a[polled..]
  }

  lemma {:induction false} CompactedAt(a: seq<PollFd>, k: nat, polled: nat, j: nat)
    requires k < polled <= |a| && j < |a|
    ensures Compacted(a, k, polled)[j] ==
      if j < k then a[j]
      else if j < polled - 1 then a[j + 1]
      else if j == polled - 1 then (if k + 1 == polled then Cleared else a[polled - 1].(fd := -1))
      else a[j]
  {
  }

  /** The invariant of the slots of a set with `polled` live entries: the live
      prefix holds distinct non-negative descriptors, every later slot is unused. */
  ghost predicate WellFormed(slots: seq<PollFd>, polled: nat)
  {
    && polled <= |slots|
    && (forall i :: 0 <= i < polled ==> slots[i].fd >= 0)
    && Distinct(slots[..polled])
    && (forall i :: polled <= i < |slots| ==> slots[i].fd == -1)
  }

  /** The live prefix after compaction is the old one without entry `k`. */
  lemma {:induction false} CompactedLive(a: seq<PollFd>, k: nat, polled: nat)
    requires k < polled <= |a|
    ensures Compacted(a, k, polled)[..polled - 1] == a[..k] + a[k + 1..polled]
  {
    var r := Compacted(a, k, polled);
    var rhs := a[..k] + a[k + 1..polled];
    forall j | 0 <= j < polled - 1
      ensures r[j] == rhs[j]
    {
      CompactedAt(a, k, polled, j);
    }
  }

  /** Dropping one entry from distinct entries keeps them distinct and loses exactly
      its descriptor. */
  lemma {:induction false} DropOne(live: seq<PollFd>, k: nat)
    requires k < |live| && Distinct(live)
    ensures Distinct(live[..k] + live[k + 1..])
    ensures Fds(live[..k] + live[k + 1..]) == Fds(live) - {live[k].fd}
  {
    var rest := live[..k] + live[k + 1..];
    assert forall i :: 0 <= i < |rest| ==> rest[i] == live[if i < k then i else i + 1];
    forall x | x in Fds(live) - {live[k].fd}
      ensures x in Fds(rest)
    {
      var i :| 0 <= i < |live| && live[i].fd == x;
      assert rest[if i < k then i else i - 1] == live[i];
    }
  }

  /** Removing the entry at `k` keeps the entries before it where they were (so the
      listener at slot 0 stays there), shifts the later live entries left in order,
      marks the vacated slot unused, and leaves a well-formed set whose descriptors are
      the old ones less the removed one. */
  lemma {:induction false} CompactedSpec(a: seq<PollFd>, k: nat, polled: nat)
    requires k < polled && WellFormed(a, polled)
    ensures var r := Compacted(a, k, polled);
      && (forall i :: 0 <= i < k ==> r[i] == a[i])
      && (forall i :: k <= i < polled - 1 ==> r[i] == a[i + 1])
      && r[polled - 1].fd == -1
      && (forall i :: polled <= i < |a| ==> r[i] == a[i])
      && WellFormed(r, polled - 1)
      && Fds(r[..polled - 1]) == Fds(a[..polled]) - {a[k].fd}
  {
    var r := Compacted(a, k, polled);
    forall j | 0 <= j < |a|
      ensures r[j] == if j < k then a[j]
        else if j < polled - 1 then a[j + 1]
        else if j == polled - 1 then (if k + 1 == polled then Cleared else a[polled - 1].(fd := -1))
        else a[j]
    {
      CompactedAt(a, k, polled, j);
    }
    var live := a[..polled];
    CompactedLive(a, k, polled);
    assert a[..k] + a[k + 1..polled] == live[..k] + live[k + 1..];
    DropOne(live, k);
  }

  /** A scan of the live prefix that stopped at `k`, having passed only other
      descriptors, stopped where `Find` does; reaching the end means `fd` is absent. */
  lemma {:induction false} ScanFound(a: seq<PollFd>, polled: nat, fd: int, k: nat)
    requires k <= polled <= |a|
    requires forall j :: 0 <= j < k ==> a[j].fd != fd
    requires k < polled ==> a[k].fd == fd
    ensures Find(a[..polled], fd) == k
    ensures k == polled <==> fd !in Fds(a[..polled])
  {
    var live := a[..polled];
    assert forall j :: 0 <= j < k ==> live[j].fd != fd;
    if k < polled {
      assert live[k].fd == fd;
    }
  }

  /** What `remove_event` needs of the compacted slots: they are well formed with one
      live entry fewer, and the removed descriptor is gone from the live prefix. These
      are the last two conjuncts of `CompactedSpec`, stated apart so that `RemoveEvent`
      does not carry the slot-by-slot quantifiers it does not use, which make its proof
      markedly more expensive. */
  lemma {:induction false} RemovedSpec(a: seq<PollFd>, k: nat, polled: nat)
    requires k < polled && WellFormed(a, polled)
    ensures WellFormed(Compacted(a, k, polled), polled - 1)
    ensures Fds(Compacted(a, k, polled)[..polled - 1]) == Fds(a[..polled]) - {a[k].fd}
  {
    CompactedSpec(a, k, polled);
  }

  /** Writing `{fd, events, 0}` at the slot `add_event`'s scan finds keeps the set
      well formed and registers `fd`. */
  lemma {:induction false} AddedSpec(a: seq<PollFd>, polled: nat, fd: int, e: PollFd)
    requires WellFormed(a, polled) && polled < |a| && fd >= 0 && e.fd == fd
    ensures var k := Find(a[..polled], fd);
      var p := if k == polled then polled + 1 else polled;
      && WellFormed(a[k := e], p)
      && Fds(a[k := e][..p]) == Fds(a[..polled]) + {fd}
  {
    var live := a[..polled];
    var k := Find(live, fd);
    if k == polled {
      assert a[k := e][..polled + 1] == live + [e];
      FdsAppend(live, e);
    } else {
      assert a[k := e][..polled] == live[k := e];
      forall x | x in Fds(live) ensures x in Fds(live[k := e]) {
        var i :| 0 <= i < polled && live[i].fd == x;
        assert live[k := e][i].fd == x;
      }
    }
  }

  class PollFds {
    var fds: array<PollFd>
    var polled: nat
    var timeout: int

    /** The live prefix holds distinct non-negative descriptors; every slot past it is unused. */
    ghost predicate Valid()
      reads this, fds
    {
      0 < fds.Length && WellFormed(fds[..], polled)
    }

    /** The descriptors currently registered. */
    ghost function Registered(): set<int>
      reads this, fds
      requires polled <= fds.Length
    {
      Fds(fds[..polled])
    }

    /** `create_pollfds`: `maxDescs` zeroed slots, all marked unused, none polled,
        no timeout. */
    constructor (maxDescs: nat)
      requires maxDescs > 0
      ensures Valid() && fresh(fds)
      ensures fds.Length == maxDescs && polled == 0 && timeout == -1
      ensures forall i :: 0 <= i < maxDescs ==> fds[i] == Cleared
      ensures Registered() == {}
    {
      var slots := new PollFd[maxDescs](_ => PollFd(0, 0, 0));
      var idx := 0;
      while idx < maxDescs
        invariant 0 <= idx <= maxDescs
        invariant forall i :: 0 <= i < idx ==> slots[i] == Cleared
        invariant forall i :: idx <= i < maxDescs ==> slots[i] == PollFd(0, 0, 0)
      {
        slots[idx] := slots[idx].(fd := -1);
        idx := idx + 1;
      }
      fds := slots;
      polled := 0;
      timeout := -1;
    }

    /** `polled_fds`: how many descriptors are registered. */
    function PolledFds(): (n: nat)
      reads this, fds
      requires Valid()
      ensures n == |Registered()|
      ensures n <= TotalFds()
    {
      DistinctCount(fds[..polled]);
      polled
    }

    /** `total_fds`: the capacity of the set. */
    function TotalFds(): (n: nat)
      reads this, fds
      requires Valid()
      ensures 0 < n && |Registered()| <= n
    {
      DistinctCount(fds[..polled]);
      fds.Length
    }

    /** `set_timeout`: changes the timeout and nothing else. */
    method SetTimeout(t: int)
      requires Valid()
      modifies this`timeout
      ensures Valid()
      ensures timeout == t
    {
      timeout := t;
    }

    /** `check_flag`: whether every bit of `flag` is set in the returned events of slot `idx`. */
    function CheckFlag(idx: nat, flag: bv16): (b: bool)
      reads this, fds
      requires idx < fds.Length
      ensures b <==> (flag & !fds[idx].revents) == 0
      ensures flag == 0 ==> b
    {
      Covers(fds[idx].revents, flag)
    }

    /** `add_event`: when the set is full, fails and changes nothing, even for a
        descriptor already registered; otherwise writes `{fd, events, 0}` over the entry
        already watching `fd`, or appends it after the live entries. */
    method AddEvent(fd: int, events: bv16) returns (r: int)
      requires Valid() && fd >= 0
      modifies fds, this`polled
      ensures Valid()
      ensures old(polled) == fds.Length ==> r == -1 && polled == old(polled) && fds[..] == old(fds[..])
      ensures old(polled) < fds.Length ==>
        var k := Find(old(fds[..polled]), fd);
        && r == 0
        && fds[..] == old(fds[..])[k := PollFd(fd, events, 0)]
        && polled == (if k == old(polled) then old(polled) + 1 else old(polled))
        && Registered() == old(Registered()) + {fd}
    {
      if polled == fds.Length {
        return -1;
      }
      ghost var a := fds[..];
      AddedSpec(a, polled, fd, PollFd(fd, events, 0));
      var idx := 0;
      while idx < polled
        invariant 0 <= idx <= polled
        invariant forall j :: 0 <= j < idx ==> fds[j].fd != fd
        invariant fds[..] == a
      {
        if fds[idx].fd == fd {
          fds[idx] := PollFd(fd, events, 0);
          assert fds[..] == a[idx := PollFd(fd, events, 0)];
          return 0;
        }
        idx := idx + 1;
      }
      fds[polled] := PollFd(fd, events, 0);
      polled := polled + 1;
      assert fds[..] == a[idx := PollFd(fd, events, 0)];
      r := 0;
    }

    /** The search loop of `remove_event`: the first live slot watching `fd`, or
        `polled` when none does. */
    method Locate(fd: int) returns (k: nat)
      requires Valid()
      ensures k == Find(fds[..polled], fd)
      ensures k < polled <==> fd in Registered()
    {
      k := 0;
      while k < polled
        invariant 0 <= k <= polled
        invariant forall j :: 0 <= j < k ==> fds[j].fd != fd
      {
        if fds[k].fd == fd {
          break;
        }
        k := k + 1;
      }
      ScanFound(fds[..], polled, fd, k);
    }

    /** The packing loop of `remove_event`: with slot `k` already cleared, moves
        every live entry after it one slot left and marks the slot they vacate unused. */
    method Pack(k: nat, ghost a: seq<PollFd>)
      requires polled <= fds.Length && k < polled && WellFormed(a, polled)
      requires fds[..] == a[k := Cleared]
      modifies fds
      ensures fds[..] == Compacted(a, k, polled)
    {
      var desc := k;
      var idx := k;
      while idx < polled
        invariant k <= idx <= polled
        invariant desc == (if idx == k then k else idx - 1)
        invariant forall j :: 0 <= j < k ==> fds[j] == a[j]
        invariant forall j :: k <= j < desc ==> fds[j] == a[j + 1]
        invariant fds[desc] == (if desc == k then Cleared else a[desc].(fd := -1))
        invariant forall j :: desc < j < fds.Length ==> fds[j] == a[j]
      {
        if fds[idx].fd < 0 {
          idx := idx + 1;
        } else {
          fds[desc] := fds[idx];
          desc := desc + 1;
          fds[idx] := fds[idx].(fd := -1);
          idx := idx + 1;
        }
      }
      forall j | 0 <= j < fds.Length
        ensures fds[j] == Compacted(a, k, polled)[j]
      {
        CompactedAt(a, k, polled, j);
      }
    }

    /** `remove_event`: a no-op on an empty set or an absent descriptor; otherwise
        clears the entry, compacts the later live entries one slot left in the same
        order and decrements `polled`. */
    method RemoveEvent(fd: int)
      requires Valid() && fd >= 0
      modifies fds, this`polled
      ensures Valid()
      ensures fd !in Registered()
      ensures Registered() == old(Registered()) - {fd}
      ensures fd !in old(Registered()) ==> polled == old(polled) && fds[..] == old(fds[..])
      ensures fd in old(Registered()) ==>
        && polled == old(polled) - 1
        && fds[..] == Compacted(old(fds[..]), old(Find(fds[..polled], fd)), old(polled))
    {
      if polled == 0 {
        return;
      }
      var k := Locate(fd);
      if k == polled {
        return;
      }
      ghost var a := fds[..];
      RemovedSpec(a, k, polled);
      fds[k] := Cleared;
      Pack(k, a);
      polled := polled - 1;
      assert fds[..polled] == Compacted(a, k, polled + 1)[..polled];
    }
  }
}

=== FILE: size_math.dfy ===
/** Size arithmetic of the event-loop core: the `size_t` width, powers of two,
    `size_roundup` and `min` of src/async_server.c. */
module SizeMath {

  import opened Bitwise

  /** `size_t` is 64 bits wide: its values are the naturals below 2^64. */
  const SizeModulus: nat := 0x1_0000_0000_0000_0000

  /** The highest power of two a `size_t` can hold, 2^63. */
  const HighBit: nat := 0x8000_0000_0000_0000

  /** `n` is a power of two (1, 2, 4, ...). */
  predicate IsPow2(n: nat)
    decreases n
  {
    if n < 2 then n == 1 else n % 2 == 0 && IsPow2(n / 2)
  }

  /** 2^k. */
  function Pow2(k: nat): (p: nat)
    ensures IsPow2(p)
  {
    if k == 0 then 1 else 2 * Pow2(k - 1)
  }

  /** Two powers of two that lie within a factor of two of each other are equal. */
  lemma {:induction false} Pow2Between(p: nat, q: nat)
    requires IsPow2(p) && IsPow2(q)
    requires p < 2 * q && q < 2 * p
    ensures p == q
  {
    if p >= 2 && q >= 2 {
      Pow2Between(p / 2, q / 2);
    }
  }

  /** The number whose bits are all set from the highest set bit of `x` down to bit
      0: the closed form of the or-shift cascade of `size_roundup`. */
  function Smear(x: nat): (m: nat)
    ensures IsPow2(m + 1)
    ensures x <= m
    ensures x == 0 <==> m == 0
    ensures m < 2 * x || x == 0
  {
    if x == 0 then 0 else 2 * Smear(x / 2) + 1
  }

  /** Bit `i` of `Smear(x)` is set exactly when `x` has a set bit at `i` or above. */
  lemma {:induction false} SmearBit(x: nat, i: nat)
    ensures Bit(Smear(x), i) == (Shr(x, i) != 0)
    decreases i
  {
    if i > 0 {
      assert Smear(x) / 2 == Smear(x / 2);
      SmearBit(x / 2, i - 1);
    }
  }

  /** The or-shift cascade of `size_roundup`, round by round as written: six rounds
      `n = n | n >> s` for s = 1, 2, 4, 8, 16 and 32. */
  function Cascade(x: nat): nat
  {
    var a := Or(x, Shr(x, 1));
    var b := Or(a, Shr(a, 2));
    var c := Or(b, Shr(b, 4));
    var d := Or(c, Shr(c, 8));
    var e := Or(d, Shr(d, 16));
    Or(e, Shr(e, 32))
  }

  /** A value below 2^k has nothing left after shifting by `k`. */
  lemma {:induction false} ShrPast(x: nat, k: nat)
    requires x < Pow2(k)
    ensures Shr(x, k) == 0
    decreases k
  {
    if k > 0 {
      ShrPast(x / 2, k - 1);
    }
  }

  /** On every 64-bit value the six rounds of the cascade reach all bits below the
      highest set one: the cascade computes `Smear`. */
  lemma CascadeIsSmear(x: nat)
    requires x < SizeModulus
    ensures Cascade(x) == Smear(x)
  {
    var a := Or(x, Shr(x, 1));
    var b := Or(a, Shr(a, 2));
    var c := Or(b, Shr(b, 4));
    var d := Or(c, Shr(c, 8));
    var e := Or(d, Shr(d, 16));
    var f := Or(e, Shr(e, 32));
    forall i: nat
      ensures Bit(x, i) == AnyBit(x, i, 1)
    {
      assert !AnyBit(x, i + 1, 0);
    }
    OrShiftSpreads(x, x, 1);
    OrShiftSpreads(x, a, 2);
    OrShiftSpreads(x, b, 4);
    OrShiftSpreads(x, c, 8);
    OrShiftSpreads(x, d, 16);
    OrShiftSpreads(x, e, 32);
    HighBitIsPow2();
    ShrPast(x, 64);
    forall i: nat
      ensures Bit(f, i) == Bit(Smear(x), i)
    {
      ShrShr(x, 64, i);
      ShrZero(i);
      AnyAbove(x, i, 64);
      SmearBit(x, i);
    }
    BitsEqual(f, Smear(x));
  }

  /** `n - 1` in `size_t` arithmetic: 0 wraps to 2^64 - 1. */
  function SizeDec(n: nat): nat
  {
    if n == 0 then SizeModulus - 1 else n - 1
  }

  /** A positive `n` has no bit in common with `n - 1` exactly when it is a power
      of two. */
  lemma {:induction false} AndPred(n: nat)
    requires n > 0
    ensures And(n, n - 1) == 0 <==> IsPow2(n)
  {
    if n >= 2 {
      if n % 2 == 0 {
        assert And(n, n - 1) == 2 * And(n / 2, n / 2 - 1);
        AndPred(n / 2);
      } else {
        assert And(n, n - 1) == 2 * And(n / 2, n / 2);
        AndSelf(n / 2);
      }
    }
  }

  /** The test `size & (size - 1)` of `size_roundup` is zero exactly for 0 and the
      powers of two. */
  lemma PowerTest(n: nat)
    ensures And(n, SizeDec(n)) == 0 <==> n == 0 || IsPow2(n)
  {
    if n > 0 {
      AndPred(n);
    }
  }

  /** What `size_roundup` returns, in closed form: a size that is 0 or a power of two
      is unchanged; any other size goes to `Smear(size) + 1` in 64-bit arithmetic. */
  function SizeRoundup(size: nat): (r: nat)
    requires size < SizeModulus
    ensures r < SizeModulus
    ensures size == 0 || IsPow2(size) ==> r == size
    ensures !(size == 0 || IsPow2(size)) && size <= HighBit ==> IsPow2(r) && size < r < 2 * size
    ensures size > HighBit ==> r == 0
  {
    if size == 0 || IsPow2(size) then
      PowerFits(size);
      size
    else
      SmearRoundup(size);
      (Smear(size) + 1) % SizeModulus
  }

  /** `size_roundup` step by step as written: the power-of-two test, the six rounds of
      the cascade and the increment, all in 64-bit arithmetic. */
  method ComputeSizeRoundup(size: nat) returns (newSize: nat)
    requires size < SizeModulus
    ensures newSize == SizeRoundup(size)
  {
    newSize := size;
    PowerTest(size);
    if And(newSize, SizeDec(newSize)) != 0 {
      newSize := Or(newSize, Shr(newSize, 1));
      newSize := Or(newSize, Shr(newSize, 2));
      newSize := Or(newSize, Shr(newSize, 4));
      newSize := Or(newSize, Shr(newSize, 8));
      newSize := Or(newSize, Shr(newSize, 16));
      newSize := Or(newSize, Shr(newSize, 32));
      assert newSize == Cascade(size);
      CascadeIsSmear(size);
      SmearRoundup(size);
      newSize := (newSize + 1) % SizeModulus;
    }
  }

  /** A power of two below 2^64 is at most 2^63. */
  lemma {:induction false} PowerFits(size: nat)
    requires size < SizeModulus
    ensures IsPow2(size) ==> size <= HighBit
  {
    if size > HighBit && IsPow2(size) {
      HighBitIsPow2();
      Pow2Between(size, SizeModulus);
    }
  }

  /** The smeared size plus one is the next power of two, which is 2^64 (wrapping to
      0) exactly when the size is above 2^63. */
  lemma {:induction false} SmearRoundup(size: nat)
    requires 0 < size < SizeModulus && !IsPow2(size)
    ensures IsPow2(Smear(size) + 1) && size < Smear(size) + 1 < 2 * size
    ensures (Smear(size) + 1) % SizeModulus == if size > HighBit then 0 else Smear(size) + 1
  {
    var m := Smear(size) + 1;
    assert IsPow2(2 * size) ==> IsPow2(size) by {
      assert (2 * size) / 2 == size;
    }
    HighBitIsPow2();
    if size > HighBit {
      Pow2Between(m, SizeModulus);
      ModUnique(m, SizeModulus, 1, 0);
    } else {
      assert size != HighBit;
      ModUnique(m, SizeModulus, 0, m);
    }
  }

  lemma {:induction false} Pow2Add(a: nat, b: nat)
    ensures Pow2(a + b) == Pow2(a) * Pow2(b)
  {
    if b > 0 {
      Pow2Add(a, b - 1);
      MulDouble(Pow2(a), Pow2(b - 1));
    }
  }

  lemma MulDouble(x: nat, y: nat)
    ensures 2 * (x * y) == x * (2 * y)
  {
  }

  /** `Pow2(63)` and `Pow2(64)` are 2^63 and 2^64, so both are powers of two. */
  lemma HighBitIsPow2()
    ensures IsPow2(HighBit) && IsPow2(SizeModulus)
    ensures Pow2(63) == HighBit && Pow2(64) == SizeModulus
  {
    assert Pow2(4) == 16;
    Pow2Add(4, 4);
    assert Pow2(8) == 0x100;
    Pow2Add(8, 8);
    assert Pow2(16) == 0x1_0000;
    Pow2Add(16, 16);
    assert Pow2(32) == 0x1_0000_0000;
    Pow2Add(16, 15);
    assert Pow2(15) == 0x8000 by { Pow2Add(8, 7); assert Pow2(7) == 0x80; }
    assert Pow2(31) == 0x8000_0000;
    Pow2Add(32, 31);
    Pow2Add(32, 32);
    assert Pow2(63) == HighBit;
    assert Pow2(64) == SizeModulus;
  }

  /** Whatever power of two is at least `size`, `size_roundup` returns one no
      larger: the result is the least power of two not below `size`. */
  lemma {:induction false} SizeRoundupIsLeast(size: nat, p: nat)
    requires size < SizeModulus && size <= HighBit
    requires IsPow2(p) && size <= p
    ensures SizeRoundup(size) <= p
  {
    var r := SizeRoundup(size);
    if size != 0 && !IsPow2(size) && p < r {
      Pow2Between(p, r);
    }
  }

  lemma {:induction false} MulAtLeast(m: int, d: int)
    requires 0 < m && 1 <= d
    ensures m <= m * d
  {
    if d > 1 {
      MulAtLeast(m, d - 1);
      assert m * d == m * (d - 1) + m;
    }
  }

  /** Euclidean remainders are unique: `x = m * q + r` with `0 <= r < m` fixes `x % m`. */
  lemma {:induction false} ModUnique(x: int, m: int, q: int, r: int)
    requires 0 < m && 0 <= r < m && x == m * q + r
    ensures x % m == r
  {
    var d := q - x / m;
    assert m * d == x % m - r;
    if d > 0 {
      MulAtLeast(m, d);
    } else if d < 0 {
      MulAtLeast(m, -d);
    }
  }

  /** A requested size that needs no wrap-around is rounded up to a power of two that
      covers it. */
  lemma {:induction false} RoundupCovers(n: nat)
    requires 0 < n <= HighBit
    ensures n % SizeModulus == n
    ensures IsPow2(SizeRoundup(n)) && n <= SizeRoundup(n)
  {
    ModUnique(n, SizeModulus, 0, n);
  }

  /** `min` of two sizes. */
  function Min(a: nat, b: nat): (m: nat)
    ensures m <= a && m <= b
    ensures m == a || m == b
  {
    if a < b then a else b
  }
}
